=== FILE: README.md ===
# goal_sensor in Dafny

A model of the pure logic inside goal_sensor. The system is a Home Assistant
sensor. It polls a small HTTP service for the current football score, which
is read by OCR from a cropped scoreboard image, and it turns "our team's
score went up by one" into a short-lived `goal` state. Two pieces of logic
sit between the camera and the automation, and the model covers both.

- **The goal-sensor state machine** (`GoalSensor`). This is
  `GoalSensor.update` together with its initial state and configuration
  defaults. It is one pure function `Update(cfg, sensor, now, fetch)` over an
  immutable record: the status (idle, active, goal), the remembered score,
  and the instants of the last poll and of the last score. The clock reading
  and the result of `fetch_scores()` are parameters. Time is counted in
  microseconds since `datetime.min`, and `timedelta.seconds` is modelled as
  such, including the way it drops whole days.
- **Reading the score and caching it per image.** This piece has several
  historical variants:
  - `ScoreRegex` is `re.search` with the pattern
    `([A-Za-z]+).+?([0-9oOQ])-([0-9oOQ]).+?([A-Za-z]+)`. It is a scanner that
    is proved to find the first match in the backtracking engine's order, and
    to find none only when no decomposition of the text matches.
  - `ParseScore` is `_parse_score` and the text half of `_get_score`, which
    both client copies share.
  - `ScoreApi` is the top-level score_api.py.
  - `HaScoreApi` is the Home Assistant component's copy, with its own
    `_read_text` cleanup.
  - `ServerScoreApi` is score_server/score_api.py.
  - `ExtractScore` is the score server's `ScoreExtractor`.
  - `DashScore`, `Discovery2022` and `Discovery2024` are the "team, team,
    `d-d`" readers that run after OCR.
  - `ImageCache` is the "same image, same score" cache that every variant
    shares.
  - `Text` holds the Python string built-ins these use: `str.split`,
    `str.replace`, `str.strip`, `str.lower` and `int()`.

Every exception that can escape the modelled logic is part of a `Result`;
the one place that can raise but is a plain predicate here is the freshness
test (see "## Left out"). Network calls, JSON decoding, base64, image
decoding, OCR and the clock are function or value parameters.

Three facts about the sensor shape the model:
- The only wait between polls is the fixed idle scan interval of an idle
  sensor (custom_components/goal_sensor/sensor.py:121-124). An active sensor
  polls on every call that neither goes idle nor forgets its score, and
  there is no back-off.
- The sensor has only the states idle, active and goal
  (custom_components/goal_sensor/const.py:11-13). Only the score server
  reports `hasSignal`, and the sensor never reads it.
- A goal is recognised only when the new score is exactly the remembered
  score plus one (custom_components/goal_sensor/sensor.py:140). A larger
  increase is not a goal.

## Model

| member | source | states |
|---|---|---|
| GoalSensor.Elapsed | custom_components/goal_sensor/sensor.py:105 | `(now - then).seconds` always lies in 0..86399; for a difference under a day it is the number of whole seconds elapsed, and for a clock behind by under a day it is that (negative) floor plus 86400 |
| GoalSensor.ElapsedDropsDays | custom_components/goal_sensor/sensor.py:105 | moving the clock by any whole number of days leaves `.seconds` unchanged, so with `Elapsed` the value is fixed for every difference |
| GoalSensor.ClockBehindWraps | custom_components/goal_sensor/sensor.py:105 | a clock one second behind the earlier instant reads 86399 seconds elapsed |
| GoalSensor.ClockBehindGoesIdle | custom_components/goal_sensor/sensor.py:105-108 | an active sensor whose clock went back one second before its last score goes idle at once without polling exactly when its idle time is at most 86398 seconds, because `.seconds` reads 86399 |
| GoalSensor.Setup | custom_components/goal_sensor/sensor.py:50-54 | the team name is lower-cased character by character, and a missing idle time, idle scan interval or score reset becomes 1200, 10 or 10 seconds |
| GoalSensor.InitialValid | custom_components/goal_sensor/sensor.py:88-90 | the constructor's state (idle, no score, both instants at `datetime.min`) satisfies the sensor invariant |
| GoalSensor.Update | custom_components/goal_sensor/sensor.py:92-144 | a goal lasts one call and returns to active without polling; an active sensor idles after `idleTime` without a score and, still active, forgets its score after `scoreReset`, with no poll in either case; an active sensor within both thresholds polls; an idle sensor polls only after its scan interval; a raising poll changes nothing; a returning poll stamps `lastUpdate`, and without the team it changes nothing else; with the team, the score and `lastScore` are updated and the status is goal exactly when the new score is the remembered score plus one, otherwise active |
| GoalSensor.NoPollIgnoresFetch | custom_components/goal_sensor/sensor.py:95-124 | when `update` returns before line 126, the outcome is the same whatever `fetch_scores` would have returned |
| GoalSensor.UpdateKeepsValid | custom_components/goal_sensor/sensor.py:126-144 | with a clock that does not run backwards, `update` keeps the invariant: a goal carries a score of at least 1 that arrived at the last poll, and `lastScore <= lastUpdate <= now` |
| GoalSensor.TraceKeepsValid | custom_components/goal_sensor/sensor.py:92-144 | every state of a run of `update` calls under a non-decreasing clock satisfies the invariant, and its last poll is no later than that call's clock reading |
| GoalSensor.NoConsecutiveGoals | custom_components/goal_sensor/sensor.py:95-99 | in any run of calls, whatever the polls return, no two consecutive states show a goal |
| GoalSensor.DayOldScoreLooksFresh | custom_components/goal_sensor/sensor.py:105-115 | because `.seconds` drops whole days, an active sensor whose last score is exactly one day old neither goes idle nor clears its score, and polls again |
| GoalSensor.FirstPollWaitsNearMidnight | custom_components/goal_sensor/sensor.py:121-124 | the first poll is measured from `datetime.min`, so at any instant, microseconds included, less than `idleScanInterval + 1` whole seconds after a midnight the new sensor does not poll |
| GoalSensor.AsWrittenApiNeverScores | custom_components/goal_sensor/sensor.py:126-132 | driven by the component's `fetch_scores` as written, a sensor without a score never gets one and never shows a goal |
| ScoreRegex.FindScore | score_api.py:126-128 | `re.search` result: a returned decomposition matches the pattern, no matching decomposition comes before it in the engine's order, and `None` is returned exactly when nothing matches |
| ScoreRegex.PrecedesTotal | score_api.py:29 | of two different decompositions the engine tries exactly one first, never both |
| ScoreRegex.PrecedesTransitive | score_api.py:29 | the engine's order of trial is transitive, so together with `PrecedesTotal` it is a strict total order and "the first match" is well defined |
| ParseScore.ScoreCharValue | score_api.py:118-124 | the number a score character stands for lies in 0..9, and a digit stands for itself |
| ParseScore.ScoreCharIsGetScore | score_api.py:118-124 | the inner `get_score` never raises on a character of `[0-9oOQ]`: it reads `o`, `O` and `Q` as 0 and a digit as itself |
| ParseScore.ScoresOf | score_api.py:130-135 | the dictionary's keys are the two lower-cased team names, each a non-empty run of lower-case letters; values lie in 0..9; the second team holds the second score; equal names collapse to one key |
| ParseScore.ParseScoreText | score_api.py:117-135 | `_parse_score` is `None` exactly when the pattern matches nowhere, and otherwise is the dictionary of the first match in the engine's order |
| ParseScore.ScoresFromText | score_api.py:78-85 | empty text, or text with no match, gives `{}`; any non-empty result has one or two team-name keys with values 0..9 |
| ParseScore.GuardsAreRedundant | score_api.py:78-85 | the empty-text and falsy-result guards never change what `_parse_score` found: the result is its dictionary or `{}` |
| ParseScore.BacktrackingShortensFirstTeam | score_api.py:126-135 | for "ab1-2 x" the greedy first team gives back a letter so that `.+?` has a character, and the result is `{"a": 1, "x": 2}` |
| ScoreApi.FetchWith | score_api.py:34-71 | MissingSchema and ConnectionError give `{}`; other request errors escape; a missing timestamp, then a missing image, then a stale image give `{}`; none of these touches the cache; a fresh response with the previous image is answered with the cached score and touches nothing; the image is processed exactly when the response is complete, fresh and different from the previous image, and a returned score is then cached |
| ScoreApi.ReadText | score_api.py:115 | every newline becomes one space, and all other characters stay in place |
| ScoreApi.ReadTextFixpoints | score_api.py:115 | reading a text twice is reading it once, and a text is left unchanged exactly when it holds no newline |
| ScoreApi.GetScore | score_api.py:73-85 | the result raises exactly when decoding or OCR raises; otherwise it is a well-formed score map, and `{}` for empty text or text with no match |
| ScoreApi.FetchScores | score_api.py:31-71 | an image is processed only from a complete response and answered with `_get_score` of it; when nothing is processed the cache is unchanged; well-formed cached scores stay well-formed |
| ScoreApi.StaleImageSkipped | score_api.py:57-60 | a stale response gives `{}`, runs no OCR and keeps the cache |
| ScoreApi.EmptyImageAtStartIsEmpty | score_api.py:27-28 | a new client has seen the image "" with score `{}`, so a fresh response with an empty image string gives `{}` without OCR |
| ScoreApi.SameImageFromCache | score_api.py:62-65 | the previous image is answered with the cached score, with no OCR and the cache unchanged |
| ScoreApi.NewImageProcessed | score_api.py:67-71 | a fresh new image is recorded, read, stored as the cached score and returned |
| ImageCache.Serve | score_api.py:62-71 | afterwards the cache holds the image; processing happens exactly for a new image; a repeated image returns the cached score and changes nothing; a new image answers what processing returns, which is cached only if processing returned |
| ImageCache.ServeIsTransparent | score_api.py:62-71 | against a cache whose score is what processing its image gives, a lookup answers exactly what processing the image directly would, and keeps that property whenever processing the image returns |
| ImageCache.ServeTwice | score_server/score_api.py:57-67 | asking twice for the same image: the second lookup does not process and changes nothing; it repeats a returned value, and after a raise it returns the previous image's score |
| HaScoreApi.ReadText | custom_components/goal_sensor/score_api.py:113 | the cleaned text contains no `+`, `#` or newline; its length is the input's minus the number of `+` and `#`; it has one more space per newline |
| HaScoreApi.ReadTextIsOnePass | custom_components/goal_sensor/score_api.py:113 | the three chained replacements equal one left-to-right pass that drops `+` and `#`, turns each newline into a space and keeps every other character in order |
| HaScoreApi.GetScore | custom_components/goal_sensor/score_api.py:76-88 | the result raises exactly when decoding or OCR raises; otherwise it is a well-formed score map, and `{}` when the cleaned text is empty or has no match |
| HaScoreApi.FetchScoresAsWritten | custom_components/goal_sensor/score_api.py:35-58 | handled request errors, a missing timestamp and a missing image give `{}`; every other path raises; the cache never changes |
| HaScoreApi.CompleteResponseRaises | custom_components/goal_sensor/score_api.py:58 | every response carrying both fields raises `NameError`, because `datetime` is not imported |
| HaScoreApi.FetchScores | custom_components/goal_sensor/score_api.py:32-74 | with `datetime` imported: an image is processed only from a complete response and answered with this component's `_get_score`; otherwise the cache is unchanged |
| HaScoreApi.CorrectedAgreesWhereAsWrittenReturns | custom_components/goal_sensor/score_api.py:35-56 | wherever the code as written returns, the corrected version returns the same and leaves the same cache |
| HaScoreApi.CorrectedReachesCache | custom_components/goal_sensor/score_api.py:63-74 | with the import restored, a fresh new image is read and cached |
| ServerScoreApi.FetchScore | score_server/score_api.py:35-67 | handled request errors and a response without an image give `{}` and keep the cache; other request errors escape; the previous image is answered with the cached reading and touches nothing; an image is processed exactly when it differs from the previous one, and the reply is the extractor's reading or its exception, a returned reading being cached |
| ServerScoreApi.EmptyImageAtStartIsEmpty | score_server/score_api.py:32-60 | a fresh server answers `{}` to an empty image string without running the extractor |
| ServerScoreApi.TimestampIgnored | score_server/score_api.py:53-67 | the server side ignores the response's timestamp |
| ServerScoreApi.SameImageTwice | score_server/score_api.py:57-67 | two requests with the same image: the second never runs the extractor, and repeats the first reading, or the reading cached before when the extractor raised |
| ExtractScore.IsNoSignalImage | score_server/extract_score.py:98-108 | "no signal" needs a reference frame of the same height and width, and then it is what the pixel comparison says |
| ExtractScore.CalculateScore | score_server/extract_score.py:53-63 | empty texts, no dash or several dashes give `{}`; a non-empty result has exactly the two team names as keys; only `ValueError` escapes |
| ExtractScore.GetScore | score_server/extract_score.py:38-44 | the reading always has both fields; `hasSignal` is the negation of the no-signal test; without a signal the score is `{}`, and with one it is `_calculate_score`, whose error escapes |
| ExtractScore.NoReferenceMeansSignal | score_server/extract_score.py:99-100 | without a reference frame every frame has a signal |
| ExtractScore.OtherSizeMeansSignal | score_server/extract_score.py:102-104 | a reference frame of another size never reports "no signal" |
| ExtractScore.NoSignalIgnoresText | score_server/extract_score.py:42-43 | without a signal the reading does not depend on what OCR would read |
| DashScore.ParseDashed | score_server/extract_score.py:53-63 | empty texts or a dash count other than one give `{}`; only `ValueError` escapes; a non-empty result has exactly the two names as keys |
| DashScore.OneDash | score_server/extract_score.py:59-63 | with one dash at index `k`, the result is `int` of the text before and after it, or `ValueError` when either is not a number |
| DashScore.AroundDash | score_server/extract_score.py:59-63 | two dash-free parts around one dash read as `int` of each part, or raise |
| DashScore.ParseDashedRoundTrip | score_server/extract_score.py:63 | parsing the text `f"{a}-{b}"` gives back `{team1: a, team2: b}` |
| DashScore.SameNameKeepsSecond | score_server/extract_score.py:63 | equal team names give one key holding the number after the dash |
| Discovery2022.ReadScore | score_server/score_readers/discovery_2022.py:18-28 | empty texts, no dash and several dashes give `{}`; only `ValueError` escapes |
| Discovery2022.DigitsAroundDash | score_server/score_readers/discovery_2022.py:24-28 | one dash between two non-empty digit runs gives `{team1: left, team2: right}` |
| Discovery2024.ReadScore | score_server/score_readers/discovery_2024.py:24-29 | a missing team name, a length other than 3 or no dash gives `{}`; past the guard only `ValueError` escapes |
| Discovery2024.ReadScoreCases | score_server/score_readers/discovery_2024.py:24-29 | past the guard, digit-dash-digit gives both digits and every other three-character text raises |
| Discovery2024.MiddleDashCase | score_server/score_readers/discovery_2024.py:27-29 | a lone dash in the middle gives both digits when both ends are digits, and raises otherwise |
| Discovery2024.EmptyPartCase | score_server/score_readers/discovery_2024.py:27-29 | a dash at either end, or two dashes, make `int("")` raise |
| Discovery2024.EmptyPartBeforeSecond | score_server/score_readers/discovery_2024.py:27 | such a text splits into at least two parts, and the first or second is empty |
| Discovery2024.DigitScoresInRange | score_server/score_readers/discovery_2024.py:27-29 | digit-dash-digit text always reads, with values in 0..9 |
| Discovery2024.TrailingDashRaises | score_server/score_readers/discovery_2024.py:24-29 | "12-" passes the guard and the code as written raises, while the guarded reading gives `{}` |
| Discovery2024.ReadScoreGuarded | score_server/score_readers/discovery_2024.py:24-29 | a non-empty result needs both names and a digit-dash-digit text, and holds values 0..9 |
| Discovery2024.GuardedAgreesWhereAsWrittenReturns | score_server/score_readers/discovery_2024.py:24-29 | wherever the code as written returns, the guarded reading returns the same dictionary |
| Text.SplitJoin | score_server/extract_score.py:59 | `str.split` with one character: joining the parts back gives the text; there is one more part than separators; no part contains the separator |
| Text.SplitAtOnlySeparator | score_server/extract_score.py:59-61 | with exactly one separator, the split is the text before it and the text after it |
| Text.IntOfDecimal | score_server/extract_score.py:63 | `int(str(n)) == n` for every natural number, with no limit on the number of digits |
| Text.IntOfOneChar | score_api.py:124 | `int` of a single character is its digit value for a digit, and raises otherwise |
| Text.RemoveCharKeepsOthers | custom_components/goal_sensor/score_api.py:113 | `replace(c, "")` keeps the count of every other character |

## Left out

- OCR and image processing are not modelled: pytesseract, cv2 and PIL decoding, cropping, inversion and resizing. The recognised text is an input (`ocr` in the client modules, `OcrTexts` in `ExtractScore`, the three strings in the readers). The extractor's `_read_text` strip and lower-case step happens before that input.
- The pixel-distance no-signal test at score_server/extract_score.py:106-108 is float L2-norm arithmetic. It is the boolean `closeToReference`, and a frame is just its height and width.
- The freshness test at score_api.py:57-58 compares a UTC timestamp with the local clock in floating point. It is the predicate `isFresh`, which cannot raise. In the source, `datetime.utcfromtimestamp` raises `ValueError` or `OverflowError` for a timestamp out of range, and `TypeError` for one that is not a number; those exceptions are not modelled.
- HTTP, `.json()`, base64 decoding, and the Flask and waitress servers are not modelled. A request is a `Transport`, which either raised an exception or delivered a response whose `timestamp` and `image` fields are present or missing. A JSON value that is not an object is not modelled.
- Logging, argparse, the `__main__` blocks and the tesseract path setup are left out.
- Home Assistant registration and the schema (custom_components/goal_sensor/sensor.py:27-35, 42-63) are not modelled, apart from the defaults and the lower-cased team. `cv.positive_int` is taken on trust: thresholds are any integers.
- The sensor imports `URL`, but custom_components/goal_sensor/const.py defines `SCORE_URL`. The platform would fail to load, which is outside the pure logic.
- Constructor arities disagree between score_server/score_api.py:30 and score_server/extract_score.py:23, and between discovery_2024.py:14 and score_reader.py:12. This is wiring, not logic: the model composes the pieces directly.
- score_server/score_reader.py and `_read_team_names` are not part of this model. The 2024 reader's team names are `Option<string>` inputs.
- Text.IntOf: models `int()` for ASCII digits surrounded by the whitespace `str.strip` removes in ASCII. Signs, underscores and non-ASCII digits are not modelled. The OCR whitelists and the score pattern never let them through. CPython's `int()` also raises `ValueError` for a decimal text of more than 4300 digits; the model reads digit runs of any length. The scores read here have one or two digits.
- Text.IntOfDecimal: holds for every natural number, while in CPython both `str(n)` and `int(...)` raise `ValueError` once `n` has more than 4300 decimal digits. No score comes near that size.
- GoalSensor.Setup: lower-cases ASCII letters only, while Python's `str.lower` also lower-cases non-ASCII letters. The sensor compares the team with dictionary keys that the score pattern restricts to `[A-Za-z]` and lower-cases. A team name with a non-ASCII letter therefore never matches a key in either version. The exception is a non-ASCII letter whose lower-case form is ASCII, such as the Kelvin sign U+212A, which Python lowers to `k`.
- ParseScore.GetScoreOf: the `I`/`l` → `1` replacements are in `GetScoreOf`, but the pattern's `[0-9oOQ]` never passes those letters, so they never take effect.
- GoalSensor.Update: a `fetch_scores` value that is not a dictionary of integers is not modelled. Scores are natural numbers.

## Findings

| source | as written | input that shows it | evidently intended | confidence | as-written member | corrected member |
|---|---|---|---|---|---|---|
| custom_components/goal_sensor/score_api.py:58 | `datetime.utcfromtimestamp` is called, but the file never imports `datetime` | any response with both `timestamp` and `image` raises `NameError`, so no image is ever read | the import used by the top-level score_api.py:5 | not executed | HaScoreApi.FetchScoresAsWritten (shown by HaScoreApi.CompleteResponseRaises) | HaScoreApi.FetchScores (with HaScoreApi.CorrectedReachesCache) |
| score_server/score_readers/discovery_2024.py:24-29 | the guard accepts any three-character text that contains a dash, then calls `int` on both split parts | "12-" splits into "12" and "", and `int("")` raises `ValueError` | return `{}` unless the text is digit, dash, digit | not executed | Discovery2024.ReadScore (shown by Discovery2024.TrailingDashRaises) | Discovery2024.ReadScoreGuarded (with Discovery2024.GuardedAgreesWhereAsWrittenReturns) |

=== FILE: dash_score.dfy ===
/**
 * The post-OCR step shared by `ScoreExtractor._calculate_score` and
 * `Discovery2022ScoreReader.read_score`: two team names and a score text such
 * as "2-1" become `{team1: 2, team2: 1}`.
 */
module DashScore {

  import opened Wrappers
  import opened Text
  import opened ScoreTypes

  /**
   * The guards and the split: `{}` for an empty name or score text, for a
   * score text without `-` and for one that does not split into exactly two
   * parts; otherwise `int` of both parts, which raises `ValueError` when
   * either part is not a number.
   */
  function ParseDashed(team1: string, team2: string, scoreText: string): (r: Result<ScoreMap, Exception>)
    ensures |team1| == 0 || |team2| == 0 || |scoreText| == 0 ==> r == Ok(map[])
    ensures Count(scoreText, '-') != 1 ==> r == Ok(map[])
    ensures r.Err? ==> r.error == ValueError
    ensures r.Ok? && r.value != map[] ==>
              && |team1| > 0 && |team2| > 0 && Count(scoreText, '-') == 1
              && r.value.Keys == {team1, team2}
  {
    if |team1| == 0 || |team2| == 0 || |scoreText| == 0 then Ok(map[])
    else if '-' !in scoreText then Ok(map[])
    else
      SplitJoin(scoreText, '-');
      var parts := Split(scoreText, '-');
      if |parts| != 2 then Ok(map[])
      else match (IntOf(parts[0]), IntOf(parts[1]))
        case (Some(a), Some(b)) => Ok(map[team1 := a][team2 := b])
        case _ => Err(ValueError)
  }

  /**
   * With names present and exactly one dash, at index `k`, the result is
   * `int` of the text before and after it, under the two names; a part that
   * is not a number (an empty one included) raises.
   */
  lemma OneDash(team1: string, team2: string, scoreText: string, k: nat)
    requires |team1| > 0 && |team2| > 0
    requires k < |scoreText| && scoreText[k] == '-' && Count(scoreText, '-') == 1
    ensures IntOf(scoreText[..k]).Some? && IntOf(scoreText[k + 1..]).Some? ==>
              ParseDashed(team1, team2, scoreText)
              == Ok(map[team1 := IntOf(scoreText[..k]).value][team2 := IntOf(scoreText[k + 1..]).value])
    ensures IntOf(scoreText[..k]).None? || IntOf(scoreText[k + 1..]).None? ==>
              ParseDashed(team1, team2, scoreText) == Err(ValueError)
  {
    SplitAtOnlySeparator(scoreText, '-', k);
  }

  /**
   * A text made of two dash-free parts around one dash reads as `int` of
   * each part, or raises when either is not a number.
   */
  lemma AroundDash(team1: string, team2: string, left: string, right: string)
    requires |team1| > 0 && |team2| > 0 && '-' !in left && '-' !in right
    ensures IntOf(left).Some? && IntOf(right).Some? ==>
              ParseDashed(team1, team2, left + "-" + right)
              == Ok(map[team1 := IntOf(left).value][team2 := IntOf(right).value])
    ensures IntOf(left).None? || IntOf(right).None? ==>
              ParseDashed(team1, team2, left + "-" + right) == Err(ValueError)
  {
    var text := left + "-" + right;
    assert text == left + ['-'] + right;
    SplitAroundSeparator(left, right, '-');
    assert '-' in text by { assert text[|left|] == '-'; }
  }

  /**
   * Parsing what `f"{a}-{b}"` prints recovers both numbers: the inverse of
   * writing a score as text.
   */
  lemma {:induction false} ParseDashedRoundTrip(team1: string, team2: string, a: nat, b: nat)
    requires |team1| > 0 && |team2| > 0
    ensures ParseDashed(team1, team2, Decimal(a) + "-" + Decimal(b)) == Ok(map[team1 := a][team2 := b])
  {
    IntOfDecimal(a);
    IntOfDecimal(b);
    AroundDash(team1, team2, Decimal(a), Decimal(b));
  }

  /** Two equal team names give one key, holding the number after the dash. */
  lemma SameNameKeepsSecond(team: string, left: string, right: string)
    requires |team| > 0 && '-' !in left && '-' !in right
    requires IntOf(left).Some? && IntOf(right).Some?
    ensures ParseDashed(team, team, left + "-" + right) == Ok(map[team := IntOf(right).value])
  {
    AroundDash(team, team, left, right);
    var a, b := IntOf(left).value, IntOf(right).value;
    OverwrittenKey(team, a, b);
  }
}

=== FILE: discovery_2022.dfy ===
/**
 * `Discovery2022ScoreReader.read_score` after OCR: the same guards and split
 * as the extractor's `_calculate_score`.
 */
module Discovery2022 {

  import opened Wrappers
  import opened Text
  import opened ScoreTypes
  import opened DashScore

  /** `read_score`, given the three OCR readings. */
  function ReadScore(team1: string, team2: string, scoreText: string): (r: Result<ScoreMap, Exception>)
    ensures |team1| == 0 || |team2| == 0 || |scoreText| == 0 ==> r == Ok(map[])
    ensures '-' !in scoreText ==> r == Ok(map[])
    ensures Count(scoreText, '-') > 1 ==> r == Ok(map[])
    ensures r.Err? ==> r.error == ValueError
  {
    ParseDashed(team1, team2, scoreText)
  }

  /**
   * With one dash between two non-empty runs of digits the reading is
   * `{team1: left, team2: right}`.
   */
  lemma DigitsAroundDash(team1: string, team2: string, left: string, right: string)
    requires |team1| > 0 && |team2| > 0
    requires |left| > 0 && AllDigits(left) && |right| > 0 && AllDigits(right)
    ensures ReadScore(team1, team2, left + "-" + right)
            == Ok(map[team1 := DigitsValue(left)][team2 := DigitsValue(right)])
  {
    assert '-' !in left && '-' !in right;
    IntOfDigits(left);
    IntOfDigits(right);
    AroundDash(team1, team2, left, right);
  }
}

=== FILE: discovery_2024.dfy ===
/**
 * `Discovery2024ScoreReader.read_score` after OCR. The team names come from
 * `_read_team_names`, which may leave either of them `None`; the score text is
 * the OCR reading of the two score crops joined by a dash picture.
 */
module Discovery2024 {

  import opened Wrappers
  import opened Text
  import opened ScoreTypes

  /** The guard of `read_score`: both names known and a three-character text with a dash. */
  predicate PassesGuard(team1: Option<string>, team2: Option<string>, score: string) {
    team1.Some? && team2.Some? && |score| == 3 && '-' in score
  }

  /** A score text of the form digit, dash, digit. */
  predicate DigitDashDigit(score: string) {
    |score| == 3 && IsDigit(score[0]) && score[1] == '-' && IsDigit(score[2])
  }

  /**
   * `read_score` as written: `{}` unless the guard passes, then
   * `split("-")` and `int` of the first two parts. Three-character texts such
   * as "12-" or "-12" pass the guard and then `int("")` raises `ValueError`.
   */
  function ReadScore(team1: Option<string>, team2: Option<string>, score: string): (r: Result<ScoreMap, Exception>)
    ensures !PassesGuard(team1, team2, score) ==> r == Ok(map[])
    ensures r.Err? ==> r.error == ValueError
  {
    if !PassesGuard(team1, team2, score) then Ok(map[])
    else
      SplitJoin(score, '-');
      var parts := Split(score, '-');
      match (IntOf(parts[0]), IntOf(parts[1]))
      case (Some(a), Some(b)) => Ok(map[team1.value := a][team2.value := b])
      case _ => Err(ValueError)
  }

  /**
   * Past the guard, the reading succeeds exactly for digit-dash-digit texts,
   * and then holds both digits, each in 0..9; every other text raises.
   */
  lemma ReadScoreCases(t1: string, t2: string, score: string)
    requires PassesGuard(Some(t1), Some(t2), score)
    ensures DigitDashDigit(score) ==>
              ReadScore(Some(t1), Some(t2), score)
              == Ok(map[t1 := DigitValue(score[0])][t2 := DigitValue(score[2])])
    ensures !DigitDashDigit(score) ==> ReadScore(Some(t1), Some(t2), score) == Err(ValueError)
  {
    if score[1] == '-' && score[0] != '-' && score[2] != '-' {
      MiddleDashCase(t1, t2, score);
    } else {
      EmptyPartCase(t1, t2, score);
    }
  }

  lemma MiddleDashCase(t1: string, t2: string, score: string)
    requires |score| == 3 && score[1] == '-' && score[0] != '-' && score[2] != '-'
    ensures IsDigit(score[0]) && IsDigit(score[2]) ==>
              ReadScore(Some(t1), Some(t2), score)
              == Ok(map[t1 := DigitValue(score[0])][t2 := DigitValue(score[2])])
    ensures !(IsDigit(score[0]) && IsDigit(score[2])) ==> ReadScore(Some(t1), Some(t2), score) == Err(ValueError)
  {
    assert '-' in score by { assert score[1] == '-'; }
    MiddleDash(score);
    ReadScoreOfParts(t1, t2, score);
    var parts := Split(score, '-');
    assert parts[0] == [score[0]] && parts[1] == [score[2]];
    IntOfOneChar(score[0]);
    IntOfOneChar(score[2]);
  }

  /** Past the guard, the reading depends only on `int` of the first two parts of the split. */
  lemma ReadScoreOfParts(t1: string, t2: string, score: string)
    requires PassesGuard(Some(t1), Some(t2), score)
    ensures |Split(score, '-')| >= 2
    ensures var a := IntOf(Split(score, '-')[0]);
            var b := IntOf(Split(score, '-')[1]);
            ReadScore(Some(t1), Some(t2), score)
            == if a.Some? && b.Some? then Ok(map[t1 := a.value][t2 := b.value]) else Err(ValueError)
  {
    SplitJoin(score, '-');
  }

  lemma EmptyPartCase(t1: string, t2: string, score: string)
    requires PassesGuard(Some(t1), Some(t2), score)
    requires !(score[1] == '-' && score[0] != '-' && score[2] != '-')
    ensures ReadScore(Some(t1), Some(t2), score) == Err(ValueError)
  {
    EmptyPartBeforeSecond(score);
    IntOfEmpty();
  }

  /** A dash alone in the middle splits the text into its first and last characters. */
  lemma MiddleDash(score: string)
    requires |score| == 3 && score[1] == '-' && score[0] != '-' && score[2] != '-'
    ensures Split(score, '-') == [[score[0]], [score[2]]]
  {
    SplitAroundSeparator([score[0]], [score[2]], '-');
    assert score == [score[0]] + ['-'] + [score[2]];
  }

  /**
   * When a three-character text has a dash anywhere but alone in the middle,
   * the first or second part of its split is empty.
   */
  lemma EmptyPartBeforeSecond(score: string)
    requires |score| == 3 && '-' in score
    requires !(score[1] == '-' && score[0] != '-' && score[2] != '-')
    ensures |Split(score, '-')| >= 2
    ensures Split(score, '-')[0] == "" || Split(score, '-')[1] == ""
  {
    var parts := Split(score, '-');
    SplitJoin(score, '-');
    JoinStartsWithFirst(parts, '-');
    JoinStartsWithFirst(parts[1..], '-');
    var rest := Join(parts[1..], '-');
    assert score == parts[0] + "-" + rest;
  }

  /** Two team names and a digit-dash-digit text: the reading raises nothing and is in range. */
  lemma DigitScoresInRange(t1: string, t2: string, score: string)
    requires DigitDashDigit(score)
    ensures ReadScore(Some(t1), Some(t2), score).Ok?
    ensures forall k :: k in ReadScore(Some(t1), Some(t2), score).value ==>
              ReadScore(Some(t1), Some(t2), score).value[k] <= 9
  {
    ReadScoreCases(t1, t2, score);
  }

  /**
   * `read_score` with the evident intent of its guard: a text that is not
   * digit-dash-digit gives `{}` instead of raising.
   */
  function ReadScoreGuarded(team1: Option<string>, team2: Option<string>, score: string): (r: ScoreMap)
    ensures r != map[] ==> team1.Some? && team2.Some? && DigitDashDigit(score)
    ensures forall k :: k in r ==> r[k] <= 9
  {
    if team1.None? || team2.None? || !DigitDashDigit(score) then map[]
    else map[team1.value := DigitValue(score[0])][team2.value := DigitValue(score[2])]
  }

  /** Wherever the code as written returns, the guarded reading returns the same. */
  lemma GuardedAgreesWhereAsWrittenReturns(team1: Option<string>, team2: Option<string>, score: string)
    requires ReadScore(team1, team2, score).Ok?
    ensures ReadScoreGuarded(team1, team2, score) == ReadScore(team1, team2, score).value
  {
    if PassesGuard(team1, team2, score) {
      ReadScoreCases(team1.value, team2.value, score);
    }
  }

  /** "12-" passes the guard and makes the code as written raise. */
  lemma TrailingDashRaises(t1: string, t2: string)
    ensures PassesGuard(Some(t1), Some(t2), "12-")
    ensures ReadScore(Some(t1), Some(t2), "12-") == Err(ValueError)
    ensures ReadScoreGuarded(Some(t1), Some(t2), "12-") == map[]
  {
    ReadScoreCases(t1, t2, "12-");
  }
}

=== FILE: extract_score.dfy ===
/**
 * `ScoreExtractor` of score_server/extract_score.py: decide whether a frame
 * shows the "no signal" picture and, if it does not, read the score from it.
 *
 * Image decoding, cropping and OCR are outside the model: a frame is its
 * height and width, the pixel-distance comparison with the reference frame is
 * the `closeToReference` argument, and the three OCR readings (already
 * stripped and lower-cased by `_read_text`) are the `OcrTexts` argument.
 */
module ExtractScore {

  import opened Wrappers
  import opened ScoreTypes
  import opened DashScore

  /** `img.shape[0]` and `img.shape[1]`. */
  datatype Shape = Shape(height: nat, width: nat)

  /** What `_read_text` returns for the left, right and middle crops. */
  datatype OcrTexts = OcrTexts(team1: string, team2: string, scoreText: string)

  /** The dictionary `{"hasSignal": ..., "score": ...}` that `get_score` returns. */
  datatype Reading = Reading(hasSignal: bool, score: ScoreMap)

  /**
   * `_is_no_signal_image`: with no reference frame, or one of another size,
   * the frame has a signal; otherwise the pixel comparison decides.
   */
  function IsNoSignalImage(reference: Option<Shape>, frame: Shape, closeToReference: bool): (r: bool)
    ensures r ==> reference.Some? && reference.value == frame
    ensures reference.Some? && reference.value == frame ==> (r <==> closeToReference)
  {
    if reference.None? then false
    else if reference.value.height != frame.height || reference.value.width != frame.width then false
    else closeToReference
  }

  /** `_calculate_score`, after OCR. */
  function CalculateScore(texts: OcrTexts): (r: Result<ScoreMap, Exception>)
    ensures |texts.team1| == 0 || |texts.team2| == 0 || |texts.scoreText| == 0 ==> r == Ok(map[])
    ensures Text.Count(texts.scoreText, '-') != 1 ==> r == Ok(map[])
    ensures r.Ok? && r.value != map[] ==> r.value.Keys == {texts.team1, texts.team2}
    ensures r.Err? ==> r.error == ValueError
  {
    ParseDashed(texts.team1, texts.team2, texts.scoreText)
  }

  /**
   * `get_score`: always both keys; without a signal the score is `{}` and the
   * OCR readings are not looked at; with a signal it is `_calculate_score`,
   * whose `ValueError` escapes.
   */
  function GetScore(reference: Option<Shape>, frame: Shape, closeToReference: bool, texts: OcrTexts)
    : (r: Result<Reading, Exception>)
    ensures r.Ok? ==> r.value.hasSignal == !IsNoSignalImage(reference, frame, closeToReference)
    ensures r.Ok? && !r.value.hasSignal ==> r.value.score == map[]
    ensures IsNoSignalImage(reference, frame, closeToReference) ==> r == Ok(Reading(false, map[]))
    ensures !IsNoSignalImage(reference, frame, closeToReference) ==>
              (r.Ok? <==> CalculateScore(texts).Ok?)
              && (r.Ok? ==> r.value.score == CalculateScore(texts).value)
  {
    var hasSignal := !IsNoSignalImage(reference, frame, closeToReference);
    if !hasSignal then Ok(Reading(false, map[]))
    else match CalculateScore(texts)
      case Ok(score) => Ok(Reading(true, score))
      case Err(e) => Err(e)
  }

  /** Without a reference frame every frame has a signal. */
  lemma NoReferenceMeansSignal(frame: Shape, closeToReference: bool, texts: OcrTexts)
    ensures GetScore(None, frame, closeToReference, texts).Ok? ==>
              GetScore(None, frame, closeToReference, texts).value.hasSignal
  {
  }

  /** A reference frame of another size never reports "no signal". */
  lemma OtherSizeMeansSignal(reference: Shape, frame: Shape, closeToReference: bool)
    requires reference.height != frame.height || reference.width != frame.width
    ensures !IsNoSignalImage(Some(reference), frame, closeToReference)
  {
  }

  /** Without a signal the answer does not depend on what OCR would have read. */
  lemma NoSignalIgnoresText(reference: Option<Shape>, frame: Shape, closeToReference: bool, a: OcrTexts, b: OcrTexts)
    requires IsNoSignalImage(reference, frame, closeToReference)
    ensures GetScore(reference, frame, closeToReference, a) == GetScore(reference, frame, closeToReference, b)
  {
  }
}

=== FILE: goal_sensor.dfy ===
/**
 * The `GoalSensor` entity of custom_components/goal_sensor/sensor.py: a
 * three-state machine (idle, active, goal) that Home Assistant drives by
 * calling `update` once a second.
 *
 * Time is an integer number of microseconds since `datetime.min`, so
 * `datetime.min` itself is 0. The clock reading `datetime.today()` and the
 * result of `fetch_scores()` are parameters of `Update`; the logging calls
 * are left out.
 */
module GoalSensor {

  import opened Wrappers
  import opened Text
  import opened ScoreTypes
  import HaScoreApi
  import ImageCache

  /** The entity's native value: "idle", "active" or "goal". */
  datatype Status = Idle | Active | Goal

  /** What `setup_platform` passes to the constructor; the thresholds are in seconds. */
  datatype Config = Config(team: string, idleTime: int, idleScanInterval: int, scoreReset: int)

  /** The fields `update` reads and writes. */
  datatype Sensor = Sensor(status: Status, currentScore: Option<nat>, lastUpdate: int, lastScore: int)

  /** What one call to `update` does: the new state, whether it called `fetch_scores`, and what escaped. */
  datatype Tick = Tick(sensor: Sensor, polled: bool, raised: Option<Exception>)

  const DatetimeMin: int := 0
  const MicrosPerSecond: int := 1_000_000
  const SecondsPerDay: int := 86_400

  const DefaultIdleTime: int := 1200
  const DefaultIdleScanInterval: int := 10
  const DefaultScoreReset: int := 10

  /**
   * `(now - earlier).seconds`: the seconds field of a `timedelta`, which drops
   * whole days and is never negative, whichever way round the two instants are.
   * With `ElapsedDropsDays` the two ranges below fix it for every difference.
   */
  function Elapsed(now: int, earlier: int): (r: int)
    ensures 0 <= r < SecondsPerDay
    ensures 0 <= now - earlier < SecondsPerDay * MicrosPerSecond ==>
              r * MicrosPerSecond <= now - earlier < (r + 1) * MicrosPerSecond
    ensures -SecondsPerDay * MicrosPerSecond <= now - earlier < 0 ==>
              (r - SecondsPerDay) * MicrosPerSecond <= now - earlier < (r - SecondsPerDay + 1) * MicrosPerSecond
  {
    ((now - earlier) / MicrosPerSecond) % SecondsPerDay
  }

  /** `setup_platform`: the team is lower-cased and each missing threshold takes its default. */
  function Setup(team: string, idleTime: Option<nat>, idleScanInterval: Option<nat>, scoreReset: Option<nat>): (cfg: Config)
    ensures |cfg.team| == |team| && forall i :: 0 <= i < |team| ==> !IsUpper(cfg.team[i])
    ensures forall i :: 0 <= i < |team| ==> LowerChar(cfg.team[i]) == LowerChar(team[i])
    ensures cfg.idleTime == (if idleTime.Some? then idleTime.value else DefaultIdleTime)
    ensures cfg.idleScanInterval == (if idleScanInterval.Some? then idleScanInterval.value else DefaultIdleScanInterval)
    ensures cfg.scoreReset == (if scoreReset.Some? then scoreReset.value else DefaultScoreReset)
  {
    Config(Lower(team),
           match idleTime case Some(t) => t case None => DefaultIdleTime,
           match idleScanInterval case Some(t) => t case None => DefaultIdleScanInterval,
           match scoreReset case Some(t) => t case None => DefaultScoreReset)
  }

  /** The constructor: idle, no score, both instants at `datetime.min`. */
  const Initial: Sensor := Sensor(Idle, None, DatetimeMin, DatetimeMin)

  /**
   * `update`. A goal lasts one call. An active sensor with no score for
   * longer than `idleTime` goes idle; one whose score is older than
   * `scoreReset` forgets it. An idle sensor polls only once more than
   * `idleScanInterval` seconds have passed since the last poll. A poll that
   * raises changes nothing; one that returns stamps `lastUpdate`; and when
   * the team is in the answer the sensor becomes active, or shows a goal when
   * the new score is exactly one more than the one it remembered.
   */
  function Update(cfg: Config, s: Sensor, now: int, fetch: Result<ScoreMap, Exception>): (t: Tick)
    // a goal is shown for exactly one call
    ensures s.status == Goal ==> t == Tick(s.(status := Active), false, None)
    // going idle and forgetting the score never poll
    ensures s.status == Active && Elapsed(now, s.lastScore) > cfg.idleTime ==>
              t == Tick(s.(status := Idle), false, None)
    ensures s.status == Active && s.currentScore.Some? && cfg.scoreReset < Elapsed(now, s.lastScore) <= cfg.idleTime ==>
              t == Tick(s.(currentScore := None), false, None)
    ensures (s.status == Active && Elapsed(now, s.lastScore) <= cfg.idleTime
             && !(s.currentScore.Some? && Elapsed(now, s.lastScore) > cfg.scoreReset)) ==> t.polled
    // an idle sensor waits for its scan interval
    ensures s.status == Idle && Elapsed(now, s.lastUpdate) <= cfg.idleScanInterval ==> t == Tick(s, false, None)
    ensures s.status == Idle && Elapsed(now, s.lastUpdate) > cfg.idleScanInterval ==> t.polled
    // without a poll nothing but the status and the remembered score change, and no score appears
    ensures !t.polled ==> t.raised == None && t.sensor.lastUpdate == s.lastUpdate && t.sensor.lastScore == s.lastScore
    ensures !t.polled ==> t.sensor.currentScore == s.currentScore || t.sensor.currentScore == None
    ensures !t.polled ==> t.sensor.status != Goal
    // a poll that raises leaves everything as it was
    ensures t.polled && fetch.Err? ==> t == Tick(s, true, Some(fetch.error))
    // a poll that returns stamps the time; without the team nothing else changes
    ensures t.polled && fetch.Ok? ==> t.raised == None && t.sensor.lastUpdate == now
    ensures t.polled && fetch.Ok? && cfg.team !in fetch.value ==> t.sensor == s.(lastUpdate := now)
    // with the team the sensor is active or shows a goal, and remembers the new score
    ensures t.polled && fetch.Ok? && cfg.team in fetch.value ==>
              && t.sensor.lastScore == now
              && t.sensor.currentScore == Some(fetch.value[cfg.team])
              && (t.sensor.status == Goal <==> s.currentScore.Some? && fetch.value[cfg.team] == s.currentScore.value + 1)
              && (t.sensor.status == Active <==> !(s.currentScore.Some? && fetch.value[cfg.team] == s.currentScore.value + 1))
    // a goal is only ever shown for a score exactly one above the remembered one
    ensures t.sensor.status == Goal && s.status != Goal ==>
              && t.polled && fetch.Ok? && cfg.team in fetch.value && s.currentScore.Some?
              && fetch.value[cfg.team] == s.currentScore.value + 1
  {
    if s.status == Goal then
      Tick(s.(status := Active), false, None)
    else if s.status == Active && Elapsed(now, s.lastScore) > cfg.idleTime then
      Tick(s.(status := Idle), false, None)
    else if s.status == Active && s.currentScore.Some? && Elapsed(now, s.lastScore) > cfg.scoreReset then
      Tick(s.(currentScore := None), false, None)
    else if s.status == Idle && Elapsed(now, s.lastUpdate) <= cfg.idleScanInterval then
      Tick(s, false, None)
    else
      match fetch
      case Err(e) => Tick(s, true, Some(e))
      case Ok(scores) =>
        if cfg.team !in scores then
          Tick(s.(lastUpdate := now), true, None)
        else
          var teamScore := scores[cfg.team];
          var goal := s.currentScore.Some? && teamScore == s.currentScore.value + 1;
          Tick(Sensor(if goal then Goal else Active, Some(teamScore), now, now), true, None)
  }

  /** When `update` does not poll, what the poll would have returned is irrelevant. */
  lemma NoPollIgnoresFetch(cfg: Config, s: Sensor, now: int, a: Result<ScoreMap, Exception>, b: Result<ScoreMap, Exception>)
    requires !Update(cfg, s, now, a).polled
    ensures Update(cfg, s, now, a) == Update(cfg, s, now, b)
  {
  }

  // ------------------------------------------------------------ invariant

  /**
   * What every reachable state satisfies: a shown goal has a score of at
   * least one that arrived at the last poll, and the last score arrived no
   * later than the last poll.
   */
  ghost predicate Valid(s: Sensor) {
    && (s.status == Goal ==> s.currentScore.Some? && s.currentScore.value >= 1 && s.lastScore == s.lastUpdate)
    && s.lastScore <= s.lastUpdate
  }

  lemma InitialValid()
    ensures Valid(Initial)
  {
  }

  /** `update` keeps the invariant as long as the clock does not run backwards. */
  lemma UpdateKeepsValid(cfg: Config, s: Sensor, now: int, fetch: Result<ScoreMap, Exception>)
    requires Valid(s) && s.lastUpdate <= now
    ensures Valid(Update(cfg, s, now, fetch).sensor)
    ensures Update(cfg, s, now, fetch).sensor.lastUpdate <= now
  {
  }

  /** The clock readings of successive calls, none earlier than `start`. */
  predicate Monotone(start: int, clock: seq<int>) {
    && (|clock| > 0 ==> start <= clock[0])
    && forall i, j :: 0 <= i < j < |clock| ==> clock[i] <= clock[j]
  }

  /** The states after each of a run of calls, one clock reading and one poll result per call. */
  function Trace(cfg: Config, s: Sensor, clock: seq<int>, fetches: seq<Result<ScoreMap, Exception>>): (tr: seq<Sensor>)
    requires |clock| == |fetches|
    ensures |tr| == |clock|
    ensures |tr| > 0 ==> tr[0] == Update(cfg, s, clock[0], fetches[0]).sensor
    decreases |clock|
  {
    if |clock| == 0 then []
    else
      var next := Update(cfg, s, clock[0], fetches[0]).sensor;
      [next] + Trace(cfg, next, clock[1..], fetches[1..])
  }

  /** Every state of a run from a valid state under a clock that does not run backwards is valid. */
  lemma {:induction false} TraceKeepsValid(cfg: Config, s: Sensor, clock: seq<int>, fetches: seq<Result<ScoreMap, Exception>>)
    requires |clock| == |fetches| && Valid(s) && Monotone(s.lastUpdate, clock)
    ensures forall i :: 0 <= i < |clock| ==> Valid(Trace(cfg, s, clock, fetches)[i])
    ensures forall i :: 0 <= i < |clock| ==> Trace(cfg, s, clock, fetches)[i].lastUpdate <= clock[i]
    decreases |clock|
  {
    if |clock| > 0 {
      UpdateKeepsValid(cfg, s, clock[0], fetches[0]);
      var next := Update(cfg, s, clock[0], fetches[0]).sensor;
      assert Monotone(next.lastUpdate, clock[1..]);
      TraceKeepsValid(cfg, next, clock[1..], fetches[1..]);
      var tr := Trace(cfg, s, clock, fetches);
      assert tr[1..] == Trace(cfg, next, clock[1..], fetches[1..]);
    }
  }

  /** No two calls in a row show a goal, whatever the clock and the polls return. */
  lemma {:induction false} NoConsecutiveGoals(cfg: Config, s: Sensor, clock: seq<int>, fetches: seq<Result<ScoreMap, Exception>>)
    requires |clock| == |fetches|
    ensures var tr := Trace(cfg, s, clock, fetches);
            && (s.status == Goal && |tr| > 0 ==> tr[0].status != Goal)
            && forall i :: 0 <= i < |tr| - 1 ==> !(tr[i].status == Goal && tr[i + 1].status == Goal)
    decreases |clock|
  {
    if |clock| > 0 {
      var next := Update(cfg, s, clock[0], fetches[0]).sensor;
      NoConsecutiveGoals(cfg, next, clock[1..], fetches[1..]);
      var tr := Trace(cfg, s, clock, fetches);
      assert tr[1..] == Trace(cfg, next, clock[1..], fetches[1..]);
    }
  }

  // ------------------------------------------------------- `.seconds` quirks

  /** Moving either instant by whole days does not change `.seconds`. */
  lemma ElapsedDropsDays(now: int, earlier: int, k: int)
    ensures Elapsed(now + k * (SecondsPerDay * MicrosPerSecond), earlier) == Elapsed(now, earlier)
  {
    assert (now - earlier + k * (SecondsPerDay * MicrosPerSecond)) / MicrosPerSecond
           == (now - earlier) / MicrosPerSecond + k * SecondsPerDay;
  }

  /**
   * A clock that went back (a naive local clock at a daylight-saving change)
   * makes `.seconds` wrap to nearly a day: one second behind reads as 86399.
   */
  lemma ClockBehindWraps(earlier: int)
    ensures Elapsed(earlier - MicrosPerSecond, earlier) == SecondsPerDay - 1
  {
  }

  /**
   * So an active sensor whose clock reads one second before its last score
   * goes idle at once, without polling, for any idle time of at most 86398
   * seconds; with an idle time of 86399 seconds or more it stays out of idle.
   */
  lemma ClockBehindGoesIdle(cfg: Config, s: Sensor, fetch: Result<ScoreMap, Exception>)
    requires s.status == Active
    ensures cfg.idleTime < SecondsPerDay - 1 ==>
              Update(cfg, s, s.lastScore - MicrosPerSecond, fetch) == Tick(s.(status := Idle), false, None)
    ensures cfg.idleTime >= SecondsPerDay - 1 ==> Update(cfg, s, s.lastScore - MicrosPerSecond, fetch).sensor.status != Idle
  {
    ClockBehindWraps(s.lastScore);
  }

  /**
   * `.seconds` forgets whole days: an active sensor whose last score is
   * exactly one day old counts as having just scored and polls again instead
   * of going idle.
   */
  lemma DayOldScoreLooksFresh(cfg: Config, s: Sensor, fetch: Result<ScoreMap, Exception>)
    requires s.status == Active && cfg.idleTime >= 0 && cfg.scoreReset >= 0
    ensures Elapsed(s.lastScore + SecondsPerDay * MicrosPerSecond, s.lastScore) == 0
    ensures Update(cfg, s, s.lastScore + SecondsPerDay * MicrosPerSecond, fetch).polled
  {
  }

  /**
   * The first call after start-up measures from `datetime.min`, a midnight:
   * at any instant that lies less than `idleScanInterval + 1` whole seconds
   * after a midnight, the first poll waits.
   */
  lemma FirstPollWaitsNearMidnight(cfg: Config, day: nat, second: int, micro: int, fetch: Result<ScoreMap, Exception>)
    requires 0 <= second <= cfg.idleScanInterval && second < SecondsPerDay
    requires 0 <= micro < MicrosPerSecond
    ensures Update(cfg, Initial, (day * SecondsPerDay + second) * MicrosPerSecond + micro, fetch) == Tick(Initial, false, None)
  {
    var now := (day * SecondsPerDay + second) * MicrosPerSecond + micro;
    assert (now - DatetimeMin) / MicrosPerSecond == day * SecondsPerDay + second;
    assert Elapsed(now, DatetimeMin) == second;
  }

  // ------------------------------------------- with the component's own API

  /**
   * Driven by the component's `fetch_scores` as written, which raises on
   * every complete response, the sensor never learns a score: a sensor with
   * no score stays without one and never shows a goal.
   */
  lemma AsWrittenApiNeverScores(cfg: Config, s: Sensor, now: int, c: ImageCache.Cache<ScoreMap>, transport: Transport)
    requires s.currentScore.None? && s.status != Goal
    ensures var t := Update(cfg, s, now, HaScoreApi.FetchScoresAsWritten(c, transport).reply);
            t.sensor.currentScore.None? && t.sensor.status != Goal && t.sensor.lastScore == s.lastScore
  {
  }
}

=== FILE: ha_score_api.dfy ===
/**
 * `ScoreApi` of the Home Assistant component
 * (custom_components/goal_sensor/score_api.py). It differs from the top-level
 * copy in its OCR text cleanup, which also drops `+` and `#`, and in that its
 * `fetch_scores` refers to `datetime` without importing it.
 */
module HaScoreApi {

  import opened Wrappers
  import opened Text
  import opened ScoreTypes
  import opened ImageCache
  import opened ParseScore
  import ScoreApi
  import ScoreRegex

  // ------------------------------------------------------------ _read_text

  /** `text.replace("+", "").replace("#", "").replace("\n", " ")`, one call after another. */
  function ReadText(ocrText: string): (r: string)
    ensures '+' !in r && '#' !in r && '\n' !in r
    ensures |r| == |ocrText| - Count(ocrText, '+') - Count(ocrText, '#')
    ensures Count(r, ' ') == Count(ocrText, ' ') + Count(ocrText, '\n')
  {
    ReadTextCounts(ocrText);
    Clean(ocrText)
  }

  /** The chained `replace` calls themselves. */
  function Clean(s: string): string {
    ReplaceChar(RemoveChar(RemoveChar(s, '+'), '#'), '\n', ' ')
  }

  lemma ReadTextCounts(s: string)
    ensures |Clean(s)| == |s| - Count(s, '+') - Count(s, '#')
    ensures Count(Clean(s), ' ') == Count(s, ' ') + Count(s, '\n')
    ensures '+' !in Clean(s) && '#' !in Clean(s) && '\n' !in Clean(s)
  {
    var withoutPlus := RemoveChar(s, '+');
    var withoutHash := RemoveChar(withoutPlus, '#');
    RemoveCharKeepsOthers(s, '+', '#');
    assert |withoutHash| == |s| - Count(s, '+') - Count(s, '#');
    RemoveCharKeepsOthers(s, '+', ' ');
    RemoveCharKeepsOthers(s, '+', '\n');
    RemoveCharKeepsOthers(withoutPlus, '#', ' ');
    RemoveCharKeepsOthers(withoutPlus, '#', '\n');
    RemoveCharKeepsOthers(withoutPlus, '#', '+');
    NewlinesToSpacesCount(withoutHash);
    assert forall i :: 0 <= i < |Clean(s)| ==> Clean(s)[i] != '+' && Clean(s)[i] != '#';
  }

  lemma {:induction false} NewlinesToSpacesCount(s: string)
    ensures Count(ReplaceChar(s, '\n', ' '), ' ') == Count(s, ' ') + Count(s, '\n')
    ensures Count(ReplaceChar(s, '\n', ' '), '\n') == 0
  {
    if |s| > 0 {
      NewlinesToSpacesCount(s[1..]);
      assert ReplaceChar(s, '\n', ' ')[1..] == ReplaceChar(s[1..], '\n', ' ');
    }
  }

  /** What the cleanup makes of a single character. */
  function CleanChar(c: char): string {
    if c == '+' || c == '#' then [] else if c == '\n' then [' '] else [c]
  }

  /** The cleanup as one left-to-right pass over the characters. */
  function CleanEach(s: string): string {
    if |s| == 0 then [] else CleanChar(s[0]) + CleanEach(s[1..])
  }

  /**
   * The three chained `replace` calls are one pass that drops `+` and `#`,
   * turns each newline into one space and keeps every other character, in order.
   */
  lemma {:induction false} ReadTextIsOnePass(s: string)
    ensures ReadText(s) == CleanEach(s)
  {
    if |s| > 0 {
      ReadTextIsOnePass(s[1..]);
      var head := [s[0]];
      assert s == head + s[1..];
      RemoveCharAppend(head, s[1..], '+');
      RemoveCharAppend(RemoveChar(head, '+'), RemoveChar(s[1..], '+'), '#');
      ReplaceCharAppend(RemoveChar(RemoveChar(head, '+'), '#'), RemoveChar(RemoveChar(s[1..], '+'), '#'), '\n', ' ');
      assert RemoveChar(head, '+') == if s[0] == '+' then [] else head;
    }
  }

  lemma {:induction false} RemoveCharAppend(a: string, b: string, c: char)
    ensures RemoveChar(a + b, c) == RemoveChar(a, c) + RemoveChar(b, c)
  {
    if |a| == 0 {
      assert a + b == b;
    } else {
      assert (a + b)[1..] == a[1..] + b;
      RemoveCharAppend(a[1..], b, c);
    }
  }

  lemma ReplaceCharAppend(a: string, b: string, x: char, y: char)
    ensures ReplaceChar(a + b, x, y) == ReplaceChar(a, x, y) + ReplaceChar(b, x, y)
  {
  }

  // ------------------------------------------------------------ _get_score

  /** `_get_score`: decode and OCR the image data, clean the text, then parse it. */
  function GetScore(ocr: string -> Result<string, Exception>, image: string): (r: Result<ScoreMap, Exception>)
    ensures r.Ok? ==> ScoreApi.WellFormed(r.value)
    ensures r.Err? <==> ocr(image).Err?
    ensures r.Ok? && |ReadText(ocr(image).value)| == 0 ==> r.value == map[]
    ensures r.Ok? && (forall m :: !ScoreRegex.IsMatch(ReadText(ocr(image).value), m)) ==> r.value == map[]
  {
    match ocr(image)
    case Err(e) => Err(e)
    case Ok(text) => Ok(ScoresFromText(ReadText(text)))
  }

  // ---------------------------------------------------------- fetch_scores

  /**
   * `fetch_scores` as written: the request errors and both field checks
   * behave as in the top-level copy, but any response that has both fields
   * reaches `datetime.utcfromtimestamp` and raises `NameError`, so no image is
   * ever processed and the cache never changes.
   */
  function FetchScoresAsWritten(c: Cache<ScoreMap>, transport: Transport): (s: Served<ScoreMap>)
    ensures !s.processed && s.cache == c
    ensures transport.Raised? && Handled(transport.error) ==> s.reply == Ok(map[])
    ensures transport.Delivered? && transport.response.timestamp.None? ==> s.reply == Ok(map[])
    ensures transport.Delivered? && transport.response.image.None? ==> s.reply == Ok(map[])
    ensures s.reply.Ok? ==> s.reply.value == map[]
  {
    match transport
    case Raised(e) =>
      if Handled(e) then Served(c, Ok(map[]), false) else Served(c, Err(e), false)
    case Delivered(response) =>
      if response.timestamp.None? then Served(c, Ok(map[]), false)
      else if response.image.None? then Served(c, Ok(map[]), false)
      else Served(c, Err(NameError), false)
  }

  /** Every complete response makes the code as written raise: the cache path is unreachable. */
  lemma CompleteResponseRaises(c: Cache<ScoreMap>, ts: int, image: string)
    ensures FetchScoresAsWritten(c, Delivered(Response(Some(ts), Some(image)))) == Served(c, Err(NameError), false)
  {
  }

  /**
   * `fetch_scores` with `datetime` imported as in the top-level copy: the
   * same checks, the freshness test and the image cache, with this
   * component's own `_get_score`.
   */
  function FetchScores(c: Cache<ScoreMap>, transport: Transport, isFresh: int -> bool,
                       ocr: string -> Result<string, Exception>): (s: Served<ScoreMap>)
    ensures s.processed ==> transport.Delivered? && transport.response.image.Some?
                            && s.reply == GetScore(ocr, transport.response.image.value)
    ensures !s.processed ==> s.cache == c
    ensures s.reply.Ok? && ScoreApi.WellFormed(c.previousScore) ==> ScoreApi.WellFormed(s.reply.value)
  {
    ScoreApi.FetchWith(c, transport, isFresh, image => GetScore(ocr, image))
  }

  /**
   * Where the code as written does not raise, the corrected `fetch_scores`
   * gives the same answer and the same cache.
   */
  lemma CorrectedAgreesWhereAsWrittenReturns(c: Cache<ScoreMap>, transport: Transport, isFresh: int -> bool,
                                             ocr: string -> Result<string, Exception>)
    requires FetchScoresAsWritten(c, transport).reply.Ok?
    ensures FetchScores(c, transport, isFresh, ocr) == FetchScoresAsWritten(c, transport)
  {
  }

  /** With the import restored, a fresh complete response with a new image is read and cached. */
  lemma CorrectedReachesCache(c: Cache<ScoreMap>, ts: int, image: string, isFresh: int -> bool,
                              ocr: string -> Result<string, Exception>)
    requires isFresh(ts) && image != c.previousImage && ocr(image).Ok?
    ensures var s := FetchScores(c, Delivered(Response(Some(ts), Some(image))), isFresh, ocr);
            && s.processed
            && s.cache == Cache(image, ScoresFromText(ReadText(ocr(image).value)))
  {
  }
}

=== FILE: image_cache.dfy ===
/**
 * The "same image, same score" cache shared by every `ScoreApi` variant: the
 * last image string and the score computed for it. An image equal to the
 * previous one is answered from the cache; any other image is recorded first
 * and then processed, and the result is stored only if processing returned.
 */
module ImageCache {

  import opened Wrappers
  import opened ScoreTypes

  /** `_previous_image` and `_previous_score`. */
  datatype Cache<R> = Cache(previousImage: string, previousScore: R)

  /**
   * The outcome of one lookup: the cache afterwards, the value returned (or
   * the exception raised), and whether the image was processed at all.
   */
  datatype Served<R> = Served(cache: Cache<R>, reply: Result<R, Exception>, processed: bool)

  /**
   * Answers `image` from the cache or by `process`. As in the source,
   * `_previous_image` is overwritten before processing, so when `process`
   * raises the new image is paired with the old score.
   */
  function Serve<R>(c: Cache<R>, image: string, process: string -> Result<R, Exception>): (s: Served<R>)
    ensures s.cache.previousImage == image
    ensures s.processed <==> image != c.previousImage
    ensures !s.processed ==> s.cache == c && s.reply == Ok(c.previousScore)
    ensures s.processed ==> s.reply == process(image)
    ensures s.reply.Ok? ==> s.cache.previousScore == s.reply.value
    ensures s.reply.Err? ==> s.cache.previousScore == c.previousScore
  {
    if image == c.previousImage then Served(c, Ok(c.previousScore), false)
    else match process(image)
      case Ok(v) => Served(Cache(image, v), Ok(v), true)
      case Err(e) => Served(c.(previousImage := image), Err(e), true)
  }

  /** The cached score is what processing the cached image returns. */
  ghost predicate Coherent<R>(c: Cache<R>, process: string -> Result<R, Exception>) {
    process(c.previousImage) == Ok(c.previousScore)
  }

  /**
   * Against a coherent cache, a lookup answers exactly what processing the
   * image directly would, and it keeps the cache coherent unless processing
   * raised.
   */
  lemma ServeIsTransparent<R>(c: Cache<R>, image: string, process: string -> Result<R, Exception>)
    requires Coherent(c, process)
    ensures Serve(c, image, process).reply == process(image)
    ensures process(image).Ok? ==> Coherent(Serve(c, image, process).cache, process)
  {
  }

  /**
   * Asking twice for the same image: the second lookup never processes and
   * leaves the cache alone. It repeats the first answer when that was a
   * value; after a raise it returns the score cached for the previous image.
   */
  lemma ServeTwice<R>(c: Cache<R>, image: string, process: string -> Result<R, Exception>)
    ensures var first := Serve(c, image, process);
            var second := Serve(first.cache, image, process);
            && !second.processed
            && second.cache == first.cache
            && (first.reply.Ok? ==> second.reply == first.reply)
            && (first.reply.Err? ==> second.reply == Ok(c.previousScore))
  {
  }
}

=== FILE: parse_score.dfy ===
/**
 * `ScoreApi._parse_score` and the text half of `ScoreApi._get_score`, which are
 * the same in the top-level score_api.py and in the Home Assistant component's
 * copy: find the score pattern, lower-case both team names, turn both score
 * characters into numbers and build `{team1: score1, team2: score2}`.
 */
module ParseScore {

  import opened Wrappers
  import opened Text
  import opened ScoreTypes
  import opened ScoreRegex

  /** The inner `get_score`: OCR look-alikes `o O Q` become `0`, `I l` become `1`, then `int`. */
  function GetScoreOf(s: string): Option<nat> {
    var zeros := ReplaceChar(ReplaceChar(ReplaceChar(s, 'o', '0'), 'O', '0'), 'Q', '0');
    IntOf(ReplaceChar(ReplaceChar(zeros, 'I', '1'), 'l', '1'))
  }

  /** What `get_score` makes of one character the pattern accepted as a score. */
  function ScoreCharValue(c: char): (v: nat)
    requires IsScoreChar(c)
    ensures v <= 9
    ensures IsDigit(c) ==> v == DigitValue(c)
  {
    if IsDigit(c) then DigitValue(c) else 0
  }

  /**
   * `get_score` applied to any character of `[0-9oOQ]` returns, never raises,
   * and reads `o`, `O` and `Q` as 0 and a digit as itself.
   */
  lemma ScoreCharIsGetScore(c: char)
    requires IsScoreChar(c)
    ensures GetScoreOf([c]) == Some(ScoreCharValue(c))
    ensures !IsDigit(c) ==> GetScoreOf([c]) == Some(0)
  {
    var d := if IsDigit(c) then c else '0';
    assert ReplaceChar(ReplaceChar(ReplaceChar([c], 'o', '0'), 'O', '0'), 'Q', '0') == [d];
    assert ReplaceChar(ReplaceChar([d], 'I', '1'), 'l', '1') == [d];
    IntOfOneChar(d);
  }

  /** A dictionary key `_parse_score` can produce: a non-empty run of lower-case ASCII letters. */
  predicate IsTeamName(k: string) {
    |k| > 0 && forall i :: 0 <= i < |k| ==> IsLetter(k[i]) && !IsUpper(k[i])
  }

  function Team1(t: string, m: Match): string
    requires IsMatch(t, m)
  {
    Lower(t[m.start..m.teamEnd])
  }

  function Team2(t: string, m: Match): string
    requires IsMatch(t, m)
  {
    Lower(t[m.team2Start..m.end])
  }

  /**
   * The dictionary `{team1: score1, team2: score2}` built from match `m`. When
   * both names are equal after lower-casing, Python keeps one key with the
   * later value.
   */
  function ScoresOf(t: string, m: Match): (r: ScoreMap)
    requires IsMatch(t, m)
    ensures r.Keys == {Team1(t, m), Team2(t, m)}
    ensures 1 <= |r| <= 2
    ensures forall k :: k in r ==> IsTeamName(k) && r[k] <= 9
    ensures r[Team2(t, m)] == ScoreCharValue(t[m.digitAt + 2])
    ensures Team1(t, m) != Team2(t, m) ==> r[Team1(t, m)] == ScoreCharValue(t[m.digitAt])
    ensures Team1(t, m) == Team2(t, m) <==> |r| == 1
    ensures Team1(t, m) == Team2(t, m) ==> r == map[Team2(t, m) := ScoreCharValue(t[m.digitAt + 2])]
  {
    var team1 := t[m.start..m.teamEnd];
    var team2 := t[m.team2Start..m.end];
    LowerLetters(team1);
    LowerLetters(team2);
    var r := map[Lower(team1) := ScoreCharValue(t[m.digitAt])][Lower(team2) := ScoreCharValue(t[m.digitAt + 2])];
    assert Lower(team1) != Lower(team2) ==> r.Keys - {Lower(team2)} == {Lower(team1)};
    OverwrittenKey(Lower(team2), ScoreCharValue(t[m.digitAt]), ScoreCharValue(t[m.digitAt + 2]));
    r
  }

  /**
   * `_parse_score`: `None` exactly when the pattern matches nowhere; otherwise
   * the dictionary of the first match in the regex engine's order.
   */
  function ParseScoreText(t: string): (r: Option<ScoreMap>)
    ensures r.None? <==> forall m :: !IsMatch(t, m)
    ensures r.Some? ==> exists m :: IsMatch(t, m) && r.value == ScoresOf(t, m)
                           && forall m' :: IsMatch(t, m') ==> !Precedes(m', m)
  {
    match FindScore(t)
    case None => None
    case Some(m) =>
      var r := ScoresOf(t, m);
      assert IsMatch(t, m) && r == ScoresOf(t, m) && forall m' :: IsMatch(t, m') ==> !Precedes(m', m);
      Some(r)
  }

  /**
   * The text half of `_get_score`: `{}` for empty text, `{}` when
   * `_parse_score` finds nothing (or something falsy), else its result.
   */
  function ScoresFromText(t: string): (r: ScoreMap)
    ensures |t| == 0 ==> r == map[]
    ensures (forall m :: !IsMatch(t, m)) ==> r == map[]
    ensures r != map[] ==> 1 <= |r| <= 2 && forall k :: k in r ==> IsTeamName(k) && r[k] <= 9
  {
    if |t| == 0 then map[]
    else match ParseScoreText(t)
      case None => map[]
      case Some(s) => if s == map[] then map[] else s
  }

  /**
   * The empty-text guard and the falsy-result guard of `_get_score` never
   * change the outcome: the result is exactly what `_parse_score` found, or `{}`.
   */
  lemma GuardsAreRedundant(t: string)
    ensures ScoresFromText(t) == match ParseScoreText(t) case None => map[] case Some(s) => s
  {
    if |t| == 0 {
      assert forall m :: !IsMatch(t, m);
    }
  }

  /** A text in which the first team name must give back a letter. */
  const Example: string := "ab1-2 x"

  /**
   * The greedy first group gives back letters: in "ab1-2 x" the first team
   * can only end where a character is left for `.+?` before the digit, so it
   * is "a", not "ab".
   */
  lemma BacktrackingShortensFirstTeam()
    ensures ParseScoreText(Example) == Some(map["a" := 1, "x" := 2])
  {
    ExampleScores();
    ExampleFirstMatch();
    ExampleTeams();
    var r := ScoresOf(Example, Match(0, 1, 2, 6, 7));
    assert r.Keys == {"a", "x"};
    TwoKeys(r, "a", "x");
  }

  /** The two score characters of the example are read as 1 and 2. */
  lemma ExampleScores()
    ensures ScoreCharValue(Example[2]) == 1 && ScoreCharValue(Example[4]) == 2
  {
    assert Example[2] == '1' && Example[4] == '2';
  }

  lemma ExampleTeams()
    ensures IsMatch(Example, Match(0, 1, 2, 6, 7))
    ensures Team1(Example, Match(0, 1, 2, 6, 7)) == "a" && Team2(Example, Match(0, 1, 2, 6, 7)) == "x"
  {
    ExampleFirstMatch();
    ExampleNames();
  }

  lemma ExampleNames()
    ensures Example[0..1] == "a" && Lower("a") == "a"
    ensures Example[6..7] == "x" && Lower("x") == "x"
  {
    assert Example[0..1] == "a";
    assert Example[6..7] == "x";
  }

  lemma ExampleFirstMatch()
    ensures FindScore(Example) == Some(Match(0, 1, 2, 6, 7))
  {
    ExampleScans();
    var t := Example;
    var m := Match(0, 1, 2, 6, 7);
    assert TryEnds(t, 0, 1) == Some(m);
    assert TryEnds(t, 0, 2) == Some(m);
  }

  lemma ExampleScans()
    ensures RunEnd(Example, 0) == 2 && RunEnd(Example, 6) == 7
    ensures FirstDigits(Example, 2) == None
    ensures FirstDigits(Example, 1) == Some(2)
    ensures FirstTeam2(Example, 5) == Some(6)
  {
    var t := Example;
    assert RunEnd(t, 2) == 2;
    assert RunEnd(t, 1) == 2;
    assert DigitsFrom(t, 2, 5) == None;
    assert DigitsFrom(t, 2, 4) == None;
    assert DigitsFrom(t, 2, 3) == None;
    assert Team2From(t, 5, 6) == Some(6);
    assert RunEnd(t, 7) == 7;
  }
}

=== FILE: score_api.dfy ===
/**
 * `ScoreApi` of the top-level score_api.py: fetch a cropped scoreboard image
 * from the camera endpoint, reject failed, incomplete and stale responses,
 * and read the score from a new image by OCR.
 *
 * The HTTP call and its `.json()` are the `Transport` argument; the freshness
 * test on the response's timestamp (local clock against a UTC timestamp) is
 * the `isFresh` argument; decoding and OCR of an image are the `ocr` argument,
 * which either returns the raw recognised text or raises.
 */
module ScoreApi {

  import opened Wrappers
  import opened Text
  import opened ScoreTypes
  import opened ImageCache
  import opened ParseScore

  /** The cache a new `ScoreApi` starts with: no image seen, `{}` as its score. */
  const InitialCache: Cache<ScoreMap> := Cache("", map[])

  /** Every score map the parser can produce, `{}` included. */
  predicate WellFormed(m: ScoreMap) {
    |m| <= 2 && forall k :: k in m ==> IsTeamName(k) && m[k] <= 9
  }

  /**
   * The body of `fetch_scores` once the HTTP call is made, for any way of
   * processing a new image: the two handled request errors and the three
   * response checks give `{}` without touching the cache, other request
   * errors escape, and a fresh complete response goes to the cache.
   */
  function FetchWith(c: Cache<ScoreMap>, transport: Transport, isFresh: int -> bool,
                     process: string -> Result<ScoreMap, Exception>): (s: Served<ScoreMap>)
    ensures transport.Raised? && Handled(transport.error) ==> s == Served(c, Ok(map[]), false)
    ensures transport.Raised? && !Handled(transport.error) ==> s == Served(c, Err(transport.error), false)
    ensures transport.Delivered? && transport.response.timestamp.None? ==> s == Served(c, Ok(map[]), false)
    ensures transport.Delivered? && transport.response.image.None? ==> s == Served(c, Ok(map[]), false)
    ensures s.reply.Err? && !s.processed ==> transport.Raised? && s.reply == Err(transport.error)
    ensures s.processed <==>
              && transport.Delivered?
              && transport.response.timestamp.Some? && transport.response.image.Some?
              && isFresh(transport.response.timestamp.value)
              && transport.response.image.value != c.previousImage
    ensures (transport.Delivered? && transport.response.timestamp.Some? && transport.response.image.Some?
             && !isFresh(transport.response.timestamp.value)) ==> s == Served(c, Ok(map[]), false)
    ensures (transport.Delivered? && transport.response.timestamp.Some? && isFresh(transport.response.timestamp.value)
             && transport.response.image == Some(c.previousImage)) ==> s == Served(c, Ok(c.previousScore), false)
    ensures s.processed ==> s.cache.previousImage == transport.response.image.value
                            && s.reply == process(transport.response.image.value)
    ensures s.processed && s.reply.Ok? ==> s.cache.previousScore == s.reply.value
  {
    match transport
    case Raised(e) =>
      if Handled(e) then Served(c, Ok(map[]), false) else Served(c, Err(e), false)
    case Delivered(response) =>
      if response.timestamp.None? then Served(c, Ok(map[]), false)
      else if response.image.None? then Served(c, Ok(map[]), false)
      else if !isFresh(response.timestamp.value) then Served(c, Ok(map[]), false)
      else Serve(c, response.image.value, process)
  }

  /** `_read_text` after the OCR call: every newline becomes a space. */
  function ReadText(ocrText: string): (r: string)
    ensures |r| == |ocrText| && '\n' !in r
    ensures forall i :: 0 <= i < |r| && ocrText[i] == '\n' ==> r[i] == ' '
    ensures forall i :: 0 <= i < |r| && ocrText[i] != '\n' ==> r[i] == ocrText[i]
  {
    ReplaceChar(ocrText, '\n', ' ')
  }

  /**
   * Reading the text again changes nothing, and a text is left as it is
   * exactly when it holds no newline.
   */
  lemma ReadTextFixpoints(ocrText: string)
    ensures ReadText(ReadText(ocrText)) == ReadText(ocrText)
    ensures ReadText(ocrText) == ocrText <==> '\n' !in ocrText
  {
    var r := ReadText(ocrText);
    assert ReadText(r) == r;
    if '\n' in ocrText {
      var i :| 0 <= i < |ocrText| && ocrText[i] == '\n';
      assert r[i] != ocrText[i];
    } else {
      assert r == ocrText;
    }
  }

  /** `_get_score`: decode and OCR the image, then parse the text. */
  function GetScore(ocr: string -> Result<string, Exception>, image: string): (r: Result<ScoreMap, Exception>)
    ensures r.Ok? ==> WellFormed(r.value)
    ensures r.Err? <==> ocr(image).Err?
    ensures r.Ok? && |ocr(image).value| == 0 ==> r.value == map[]
    ensures r.Ok? && (forall m :: !ScoreRegex.IsMatch(ReadText(ocr(image).value), m)) ==> r.value == map[]
  {
    match ocr(image)
    case Err(e) => Err(e)
    case Ok(text) => Ok(ScoresFromText(ReadText(text)))
  }

  /** `fetch_scores`. */
  function FetchScores(c: Cache<ScoreMap>, transport: Transport, isFresh: int -> bool,
                       ocr: string -> Result<string, Exception>): (s: Served<ScoreMap>)
    ensures s.processed ==> transport.Delivered? && transport.response.image.Some?
                            && s.reply == GetScore(ocr, transport.response.image.value)
    ensures !s.processed ==> s.cache == c
    ensures s.reply.Ok? && WellFormed(c.previousScore) ==> WellFormed(s.reply.value)
    ensures WellFormed(c.previousScore) ==> WellFormed(s.cache.previousScore)
  {
    FetchWith(c, transport, isFresh, image => GetScore(ocr, image))
  }

  /** A stale image gives `{}`, runs no OCR and leaves the cache as it was. */
  lemma StaleImageSkipped(c: Cache<ScoreMap>, ts: int, image: string, isFresh: int -> bool,
                          ocr: string -> Result<string, Exception>)
    requires !isFresh(ts)
    ensures FetchScores(c, Delivered(Response(Some(ts), Some(image))), isFresh, ocr) == Served(c, Ok(map[]), false)
  {
  }

  /** The image seen last time is answered from the cache without OCR. */
  lemma SameImageFromCache(c: Cache<ScoreMap>, ts: int, isFresh: int -> bool,
                           ocr: string -> Result<string, Exception>)
    requires isFresh(ts)
    ensures FetchScores(c, Delivered(Response(Some(ts), Some(c.previousImage))), isFresh, ocr)
            == Served(c, Ok(c.previousScore), false)
  {
  }

  /**
   * A client freshly created has seen the image "" with score `{}`: a fresh
   * response carrying an empty image string is answered `{}` without OCR.
   */
  lemma EmptyImageAtStartIsEmpty(ts: int, isFresh: int -> bool, ocr: string -> Result<string, Exception>)
    requires isFresh(ts)
    ensures FetchScores(InitialCache, Delivered(Response(Some(ts), Some(""))), isFresh, ocr)
            == Served(InitialCache, Ok(map[]), false)
  {
  }

  /** A new fresh image is recorded, read, and its score stored and returned. */
  lemma NewImageProcessed(c: Cache<ScoreMap>, ts: int, image: string, isFresh: int -> bool,
                          ocr: string -> Result<string, Exception>)
    requires isFresh(ts) && image != c.previousImage && ocr(image).Ok?
    ensures var s := FetchScores(c, Delivered(Response(Some(ts), Some(image))), isFresh, ocr);
            && s.processed
            && s.cache == Cache(image, s.reply.value)
            && s.reply == Ok(ScoresFromText(ReadText(ocr(image).value)))
  {
  }
}

=== FILE: score_regex.dfy ===
/**
 * `re.search(r"([A-Za-z]+).+?([0-9oOQ])-([0-9oOQ]).+?([A-Za-z]+)", text)`.
 *
 * A match is described by five positions in the text:
 *
 *   text = pre + team1 + gap1 + d1 + "-" + d2 + gap2 + team2 + post
 *
 * where `team1 == text[start..teamEnd]`, `gap1 == text[teamEnd..digitAt]`,
 * `d1 == text[digitAt]`, `d2 == text[digitAt + 2]`,
 * `gap2 == text[digitAt + 3..team2Start]` and `team2 == text[team2Start..end]`.
 * Both team names are non-empty letter runs, both gaps are non-empty and
 * newline-free (what `.` matches), and both digits are in `[0-9oOQ]`.
 *
 * Python's backtracking engine returns the first such decomposition in the
 * order it tries them: leftmost `start`; then the longest `team1` (greedy
 * `+`); then the shortest `gap1` and the shortest `gap2` (lazy `+?`); then the
 * longest `team2`. `FindScore` scans in exactly that order and is proved to
 * return the first match in it, and to return `None` only when there is none.
 */
module ScoreRegex {

  import opened Wrappers
  import opened Text

  /** The character class `[0-9oOQ]`: a score digit or a letter OCR reads for a zero. */
  predicate IsScoreChar(c: char) {
    IsDigit(c) || c == 'o' || c == 'O' || c == 'Q'
  }

  /** Every character of `t[i..j]` is in `[A-Za-z]`. */
  predicate Letters(t: string, i: int, j: int)
    requires 0 <= i <= j <= |t|
  {
    forall k :: i <= k < j ==> IsLetter(t[k])
  }

  /** Every character of `t[i..j]` is matched by `.`, which excludes the newline. */
  predicate NoNewline(t: string, i: int, j: int)
    requires 0 <= i <= j <= |t|
  {
    forall k :: i <= k < j ==> t[k] != '\n'
  }

  /** `([0-9oOQ])-([0-9oOQ])` matches at `p`. */
  predicate DashAt(t: string, p: int) {
    0 <= p && p + 2 < |t| && IsScoreChar(t[p]) && t[p + 1] == '-' && IsScoreChar(t[p + 2])
  }

  datatype Match = Match(start: nat, teamEnd: nat, digitAt: nat, team2Start: nat, end: nat)

  /** `m` is a decomposition of `t` that the pattern accepts. */
  predicate IsMatch(t: string, m: Match) {
    && m.start < m.teamEnd < m.digitAt
    && m.digitAt + 3 < m.team2Start < m.end <= |t|
    && Letters(t, m.start, m.teamEnd)
    && NoNewline(t, m.teamEnd, m.digitAt)
    && DashAt(t, m.digitAt)
    && NoNewline(t, m.digitAt + 3, m.team2Start)
    && Letters(t, m.team2Start, m.end)
  }

  /** `a` is tried before `b` by the backtracking engine. */
  predicate Precedes(a: Match, b: Match) {
    || a.start < b.start
    || (a.start == b.start && a.teamEnd > b.teamEnd)
    || (a.start == b.start && a.teamEnd == b.teamEnd && a.digitAt < b.digitAt)
    || (a.start == b.start && a.teamEnd == b.teamEnd && a.digitAt == b.digitAt
        && a.team2Start < b.team2Start)
    || (a.start == b.start && a.teamEnd == b.teamEnd && a.digitAt == b.digitAt
        && a.team2Start == b.team2Start && a.end > b.end)
  }

  /** The engine's order is total: of two different matches, one is tried first. */
  lemma PrecedesTotal(a: Match, b: Match)
    ensures a == b || Precedes(a, b) || Precedes(b, a)
    ensures !(Precedes(a, b) && Precedes(b, a))
  {
  }

  /** The engine's order is transitive, so with `PrecedesTotal` it is a strict total order. */
  lemma PrecedesTransitive(a: Match, b: Match, c: Match)
    requires Precedes(a, b) && Precedes(b, c)
    ensures Precedes(a, c)
  {
  }

  // --------------------------------------------------------- the scanners

  /** Greedy `[A-Za-z]+` from `q`: the end of the letter run starting there. */
  function RunEnd(t: string, q: int): (r: int)
    requires 0 <= q <= |t|
    ensures q <= r <= |t| && Letters(t, q, r)
    ensures r == |t| || !IsLetter(t[r])
    decreases |t| - q
  {
    if q < |t| && IsLetter(t[q]) then RunEnd(t, q + 1) else q
  }

  lemma LettersWithinRun(t: string, q: int, j: int)
    requires 0 <= q <= j <= |t| && Letters(t, q, j)
    ensures j <= RunEnd(t, q)
  {
  }

  /** `.+?` from `base` followed by a letter at `q`. */
  predicate Team2Ok(t: string, base: int, q: int) {
    0 <= base < q < |t| && NoNewline(t, base, q) && IsLetter(t[q])
  }

  /** Lazy scan for the second team: candidates `k, k + 1, ...`, the gap so far newline-free. */
  function Team2From(t: string, base: int, k: int): (r: Option<int>)
    requires 0 <= base < k <= |t| && NoNewline(t, base, k)
    ensures r.Some? ==> Team2Ok(t, base, r.value) && k <= r.value
    ensures r.Some? ==> forall q :: k <= q < r.value ==> !IsLetter(t[q])
    ensures r.None? ==> forall q :: k <= q && Team2Ok(t, base, q) ==> false
    decreases |t| - k
  {
    if k == |t| then None
    else if IsLetter(t[k]) then Some(k)
    else if t[k] == '\n' then None
    else Team2From(t, base, k + 1)
  }

  /** The position of the second team name after the gap that starts at `base`. */
  function FirstTeam2(t: string, base: int): (r: Option<int>)
    requires 0 <= base <= |t|
    ensures r.Some? ==> Team2Ok(t, base, r.value)
    ensures r.Some? ==> forall q :: Team2Ok(t, base, q) ==> r.value <= q
    ensures r.None? ==> forall q :: !Team2Ok(t, base, q)
  {
    if base == |t| || t[base] == '\n' then None else Team2From(t, base, base + 1)
  }

  /** The score `d1-d2` may sit at `p` after a team name ending at `e`, and a second team follows. */
  predicate DigitsOk(t: string, e: int, p: int) {
    0 <= e < p <= |t| && NoNewline(t, e, p) && DashAt(t, p) && FirstTeam2(t, p + 3).Some?
  }

  /** Lazy scan for the score: candidates `p, p + 1, ...`, the gap so far newline-free. */
  function DigitsFrom(t: string, e: int, p: int): (r: Option<int>)
    requires 0 <= e < p <= |t| && NoNewline(t, e, p)
    ensures r.Some? ==> DigitsOk(t, e, r.value) && p <= r.value
    ensures r.Some? ==> forall p' :: p <= p' < r.value ==> !DigitsOk(t, e, p')
    ensures r.None? ==> forall p' :: p <= p' ==> !DigitsOk(t, e, p')
    decreases |t| - p
  {
    if p + 2 >= |t| then None
    else if DashAt(t, p) && FirstTeam2(t, p + 3).Some? then Some(p)
    else if t[p] == '\n' then None
    else DigitsFrom(t, e, p + 1)
  }

  /** The position of the score after a first team name that ends at `e`. */
  function FirstDigits(t: string, e: int): (r: Option<int>)
    requires 0 <= e <= |t|
    ensures r.Some? ==> DigitsOk(t, e, r.value)
    ensures r.Some? ==> forall p :: DigitsOk(t, e, p) ==> r.value <= p
    ensures r.None? ==> forall p :: !DigitsOk(t, e, p)
  {
    if e == |t| || t[e] == '\n' then None else DigitsFrom(t, e, e + 1)
  }

  /** Every accepted decomposition passes the score test at its own positions. */
  lemma MatchHasDigits(t: string, m: Match)
    requires IsMatch(t, m)
    ensures DigitsOk(t, m.teamEnd, m.digitAt)
    ensures Team2Ok(t, m.digitAt + 3, m.team2Start)
  {
    assert Team2Ok(t, m.digitAt + 3, m.team2Start);
  }

  /**
   * Backtracking over the first team's end: `e, e - 1, ..., start + 1`, the
   * first that admits a score and a second team wins.
   */
  function TryEnds(t: string, i: int, e: int): (r: Option<Match>)
    requires 0 <= i <= e <= |t| && Letters(t, i, e)
    ensures r.Some? ==> IsMatch(t, r.value) && r.value.start == i && r.value.teamEnd <= e
    ensures r.Some? ==> forall m :: IsMatch(t, m) && m.start == i && m.teamEnd <= e
                                    ==> !Precedes(m, r.value)
    ensures r.None? ==> forall m :: IsMatch(t, m) && m.start == i ==> m.teamEnd > e
    decreases e
  {
    if e == i then None
    else match FirstDigits(t, e)
      case Some(p) =>
        var q := FirstTeam2(t, p + 3).value;
        var found := Match(i, e, p, q, RunEnd(t, q));
        FoundIsFirst(t, i, e, p, q);
        Some(found)
      case None =>
        assert forall m :: IsMatch(t, m) && m.start == i ==> m.teamEnd != e by {
          forall m | IsMatch(t, m) && m.start == i
            ensures m.teamEnd != e
          {
            MatchHasDigits(t, m);
          }
        }
        TryEnds(t, i, e - 1)
  }

  /** The match `TryEnds` returns at team end `e` is preceded by no match ending its first team at or before `e`. */
  lemma FoundIsFirst(t: string, i: int, e: int, p: int, q: int)
    requires 0 <= i < e <= |t| && Letters(t, i, e)
    requires FirstDigits(t, e) == Some(p) && FirstTeam2(t, p + 3) == Some(q)
    ensures forall m :: IsMatch(t, m) && m.start == i && m.teamEnd <= e ==> !Precedes(m, Match(i, e, p, q, RunEnd(t, q)))
  {
    forall m | IsMatch(t, m) && m.start == i && m.teamEnd <= e
      ensures !Precedes(m, Match(i, e, p, q, RunEnd(t, q)))
    {
      MatchHasDigits(t, m);
      LettersWithinRun(t, m.team2Start, m.end);
    }
  }

  /** Leftmost search: candidate starts `i, i + 1, ...`. */
  function SearchFrom(t: string, i: int): (r: Option<Match>)
    requires 0 <= i <= |t|
    ensures r.Some? ==> IsMatch(t, r.value) && i <= r.value.start
    ensures r.Some? ==> forall m :: IsMatch(t, m) && i <= m.start ==> !Precedes(m, r.value)
    ensures r.None? ==> forall m :: IsMatch(t, m) ==> m.start < i
    decreases |t| - i
  {
    if i == |t| then None
    else
      var here := if IsLetter(t[i]) then TryEnds(t, i, RunEnd(t, i)) else None;
      assert forall m :: IsMatch(t, m) && m.start == i ==> here.Some? by {
        forall m | IsMatch(t, m) && m.start == i
          ensures here.Some?
        {
          LettersWithinRun(t, i, m.teamEnd);
        }
      }
      if here.Some? then here else SearchFrom(t, i + 1)
  }

  /**
   * `re.search` with the score pattern: the first match in the engine's order,
   * or `None` exactly when the pattern matches nowhere in `t`.
   */
  function FindScore(t: string): (r: Option<Match>)
    ensures r.Some? ==> IsMatch(t, r.value)
    ensures r.Some? ==> forall m :: IsMatch(t, m) ==> !Precedes(m, r.value)
    ensures r.None? <==> forall m :: !IsMatch(t, m)
  {
    SearchFrom(t, 0)
  }
}

=== FILE: score_types.dfy ===
/** Types shared by every component: score maps and the exceptions that can escape. */
module ScoreTypes {

  import opened Wrappers

  /** A score dictionary: team name to goals. Python's `{}` is `map[]`. */
  type ScoreMap = map<string, nat>

  /** The Python exceptions the model distinguishes. */
  datatype Exception =
    | MissingSchema       // requests.exceptions.MissingSchema
    | ConnectionError     // requests.exceptions.ConnectionError and its subclasses
    | RequestFailure      // any other failure of the HTTP call or of `.json()`
    | ImageError          // base64 decoding, image decoding or OCR failed
    | ValueError          // `int()` applied to a string that is not a number
    | NameError           // a global name that was never imported

  /** The two request failures that every `fetch` variant turns into `{}`. */
  predicate Handled(e: Exception) {
    e == MissingSchema || e == ConnectionError
  }

  /** What the HTTP call and its `.json()` produced, as seen by a `fetch` method. */
  datatype Transport =
    | Raised(error: Exception)
    | Delivered(response: Response)

  /** A decoded JSON object; only the fields the code reads are kept. */
  datatype Response = Response(timestamp: Option<int>, image: Option<string>)

  /** A dictionary literal that names a key twice keeps the later value. */
  lemma OverwrittenKey(k: string, a: nat, b: nat)
    ensures map[k := a][k := b] == map[k := b]
  {
    assert map[k := a][k := b].Keys == {k};
  }

  /** A dictionary with exactly the keys `a` and `b` is the literal naming both. */
  lemma TwoKeys(r: ScoreMap, a: string, b: string)
    requires r.Keys == {a, b}
    ensures r == map[a := r[a], b := r[b]]
  {
  }
}

=== FILE: server_score_api.dfy ===
/**
 * `ScoreApi` of score_server/score_api.py, the score server's side: fetch
 * the cropped image from the camera endpoint and answer the extractor's
 * reading for it, with the same image cache as the other variants. Unlike
 * the Home Assistant side it has no timestamp check.
 *
 * The HTTP call and its `.json()` are the `Transport` argument (its
 * timestamp is ignored); base64 decoding and `ScoreExtractor.get_score` are
 * the `extract` argument.
 */
module ServerScoreApi {

  import opened Wrappers
  import opened ScoreTypes
  import opened ImageCache
  import opened ExtractScore

  /** What `fetch_score` returns: `{}`, or the extractor's `{"hasSignal": ..., "score": ...}`. */
  datatype Reply = EmptyReply | Got(reading: Reading)

  /** `_previous_image = ""` and `_previous_score = {}`. */
  const InitialCache: Cache<Reply> := Cache("", EmptyReply)

  /**
   * `fetch_score`: the two handled request errors and a response without an
   * image give `{}` and leave the cache alone; other request errors escape;
   * an image goes through the cache, and the extractor's errors escape after
   * the image has been recorded.
   */
  function FetchScore(c: Cache<Reply>, transport: Transport, extract: string -> Result<Reading, Exception>)
    : (s: Served<Reply>)
    ensures transport.Raised? && Handled(transport.error) ==> s == Served(c, Ok(EmptyReply), false)
    ensures transport.Raised? && !Handled(transport.error) ==> s == Served(c, Err(transport.error), false)
    ensures transport.Delivered? && transport.response.image.None? ==> s == Served(c, Ok(EmptyReply), false)
    ensures s.processed <==> transport.Delivered? && transport.response.image.Some?
                             && transport.response.image.value != c.previousImage
    ensures s.processed ==> s.cache.previousImage == transport.response.image.value
                            && (s.reply.Ok? <==> extract(transport.response.image.value).Ok?)
                            && (s.reply.Ok? ==> s.reply.value == Got(extract(transport.response.image.value).value))
    ensures transport.Delivered? && transport.response.image == Some(c.previousImage) ==>
              s == Served(c, Ok(c.previousScore), false)
    ensures s.processed && s.reply.Ok? ==> s.cache.previousScore == s.reply.value
    ensures !s.processed ==> s.cache == c
    ensures s.reply.Ok? && s.reply.value.Got? ==> s.processed || c.previousScore == s.reply.value
  {
    match transport
    case Raised(e) =>
      if Handled(e) then Served(c, Ok(EmptyReply), false) else Served(c, Err(e), false)
    case Delivered(response) =>
      if response.image.None? then Served(c, Ok(EmptyReply), false)
      else Serve(c, response.image.value, image => Lift(extract(image)))
  }

  /** The extractor's dictionary as a reply, its exception unchanged. */
  function Lift(r: Result<Reading, Exception>): (l: Result<Reply, Exception>)
    ensures l.Ok? <==> r.Ok?
    ensures l.Ok? ==> l.value == Got(r.value)
    ensures l.Err? ==> l.error == r.error
  {
    match r
    case Ok(reading) => Ok(Got(reading))
    case Err(e) => Err(e)
  }

  /** A server freshly started answers `{}` to an empty image string without running the extractor. */
  lemma EmptyImageAtStartIsEmpty(ts: Option<int>, extract: string -> Result<Reading, Exception>)
    ensures FetchScore(InitialCache, Delivered(Response(ts, Some(""))), extract)
            == Served(InitialCache, Ok(EmptyReply), false)
  {
  }

  /** The timestamp of a response plays no part in the answer. */
  lemma TimestampIgnored(c: Cache<Reply>, a: Option<int>, b: Option<int>, image: Option<string>,
                         extract: string -> Result<Reading, Exception>)
    ensures FetchScore(c, Delivered(Response(a, image)), extract) == FetchScore(c, Delivered(Response(b, image)), extract)
  {
  }

  /**
   * The same image twice in a row: the second request never runs the
   * extractor; it repeats the first reading, or, when the extractor raised
   * the first time, returns the reading cached for the image before.
   */
  lemma SameImageTwice(c: Cache<Reply>, ts: Option<int>, image: string, extract: string -> Result<Reading, Exception>)
    ensures var first := FetchScore(c, Delivered(Response(ts, Some(image))), extract);
            var second := FetchScore(first.cache, Delivered(Response(ts, Some(image))), extract);
            && !second.processed
            && (first.reply.Ok? ==> second.reply == first.reply)
            && (first.reply.Err? ==> second.reply == Ok(c.previousScore))
  {
    ServeTwice(c, image, image => Lift(extract(image)));
  }
}

=== FILE: text.dfy ===
/**
 * The Python string operations the score parsers rely on: character classes,
 * `str.lower`, `str.replace` with one-character arguments, `str.split` on a
 * separator, `str.strip` and `int()` on a decimal string.
 */
module Text {

  import opened Wrappers

  predicate IsUpper(c: char) { 'A' <= c <= 'Z' }

  /** The character class `[A-Za-z]`. */
  predicate IsLetter(c: char) { IsUpper(c) || 'a' <= c <= 'z' }

  /** The ASCII decimal digits `[0-9]`. */
  predicate IsDigit(c: char) { '0' <= c <= '9' }

  /** The ASCII characters for which Python's `str.isspace` holds. */
  predicate IsSpace(c: char) {
    c == ' ' || '\t' <= c <= '\r' || '\U{1C}' <= c <= '\U{1F}'
  }

  predicate AllDigits(s: string) {
    forall i :: 0 <= i < |s| ==> IsDigit(s[i])
  }

  function DigitValue(c: char): (v: nat)
    requires IsDigit(c)
    ensures v <= 9
  {
    (c - '0') as nat
  }

  function DigitChar(d: nat): (c: char)
    requires d <= 9
    ensures IsDigit(c) && DigitValue(c) == d
  {
    ('0' as int + d) as char
  }

  // ---------------------------------------------------------------- lower

  /** Python's `str.lower` on one character, for the ASCII range. */
  function LowerChar(c: char): (r: char)
    ensures IsUpper(c) ==> r != c && IsLetter(r) && !IsUpper(r)
    ensures !IsUpper(c) ==> r == c
  {
    if IsUpper(c) then (c as int + 32) as char else c
  }

  function Lower(s: string): (r: string)
    ensures |r| == |s|
    ensures forall i :: 0 <= i < |s| ==> r[i] == LowerChar(s[i])
  {
    if |s| == 0 then [] else [LowerChar(s[0])] + Lower(s[1..])
  }

  /** A lowered run of letters is still a run of letters, now with no upper case. */
  lemma LowerLetters(s: string)
    requires forall i :: 0 <= i < |s| ==> IsLetter(s[i])
    ensures forall i :: 0 <= i < |s| ==> IsLetter(Lower(s)[i]) && !IsUpper(Lower(s)[i])
  {
  }

  // ------------------------------------------------- replace, remove, count

  /** The number of occurrences of `c` in `s`. */
  function Count(s: string, c: char): (n: nat)
    ensures n <= |s|
    ensures n == 0 <==> c !in s
  {
    if |s| == 0 then 0 else (if s[0] == c then 1 else 0) + Count(s[1..], c)
  }

  lemma CountAppend(a: string, b: string, c: char)
    ensures Count(a + b, c) == Count(a, c) + Count(b, c)
  {
    if |a| == 0 {
      assert a + b == b;
    } else {
      assert (a + b)[1..] == a[1..] + b;
    }
  }

  /** `s.replace(a, b)` for one-character `a` and `b`. */
  function ReplaceChar(s: string, a: char, b: char): (r: string)
    ensures |r| == |s|
    ensures forall i :: 0 <= i < |s| ==> r[i] == if s[i] == a then b else s[i]
  {
    if |s| == 0 then [] else [if s[0] == a then b else s[0]] + ReplaceChar(s[1..], a, b)
  }

  /** `s.replace(c, "")` for a one-character `c`. */
  function RemoveChar(s: string, c: char): (r: string)
    ensures c !in r
    ensures |r| == |s| - Count(s, c)
  {
    if |s| == 0 then [] else (if s[0] == c then [] else [s[0]]) + RemoveChar(s[1..], c)
  }

  /** Removing one character leaves the number of every other character as it was. */
  lemma {:induction false} RemoveCharKeepsOthers(s: string, c: char, x: char)
    requires x != c
    ensures Count(RemoveChar(s, c), x) == Count(s, x)
  {
    if |s| > 0 {
      RemoveCharKeepsOthers(s[1..], c, x);
      CountAppend(if s[0] == c then [] else [s[0]], RemoveChar(s[1..], c), x);
    }
  }

  // ---------------------------------------------------------------- split

  /** `s.split(c)`: the maximal pieces between occurrences of `c`, never an empty list. */
  function Split(s: string, c: char): (parts: seq<string>)
    ensures |parts| >= 1
  {
    if |s| == 0 then [""]
    else
      var rest := Split(s[1..], c);
      if s[0] == c then [""] + rest else [[s[0]] + rest[0]] + rest[1..]
  }

  /** `c.join(parts)`. */
  function Join(parts: seq<string>, c: char): string
    requires |parts| >= 1
  {
    if |parts| == 1 then parts[0] else parts[0] + [c] + Join(parts[1..], c)
  }

  /**
   * The pieces of `Split` contain no separator, there is one more of them than
   * there are separators, and joining them back with the separator gives `s`.
   */
  lemma {:induction false} SplitJoin(s: string, c: char)
    ensures Join(Split(s, c), c) == s
    ensures |Split(s, c)| == Count(s, c) + 1
    ensures forall i :: 0 <= i < |Split(s, c)| ==> c !in Split(s, c)[i]
  {
    if |s| > 0 {
      SplitJoin(s[1..], c);
      assert s == [s[0]] + s[1..];
      if s[0] == c {
        SplitAfterSeparator(s, c);
      } else {
        SplitAfterOther(s, c);
      }
    }
  }

  /** The step of `SplitJoin` for a text that starts with the separator. */
  lemma SplitAfterSeparator(s: string, c: char)
    requires |s| > 0 && s[0] == c && s == [s[0]] + s[1..]
    requires Join(Split(s[1..], c), c) == s[1..]
    requires |Split(s[1..], c)| == Count(s[1..], c) + 1
    requires forall i :: 0 <= i < |Split(s[1..], c)| ==> c !in Split(s[1..], c)[i]
    ensures Join(Split(s, c), c) == s
    ensures |Split(s, c)| == Count(s, c) + 1
    ensures forall i :: 0 <= i < |Split(s, c)| ==> c !in Split(s, c)[i]
  {
    var rest := Split(s[1..], c);
    var parts := Split(s, c);
    assert parts == [""] + rest;
    assert parts[1..] == rest;
    assert forall i :: 1 <= i < |parts| ==> parts[i] == rest[i - 1];
  }

  /** The step of `SplitJoin` for a text that starts with another character. */
  lemma SplitAfterOther(s: string, c: char)
    requires |s| > 0 && s[0] != c && s == [s[0]] + s[1..]
    requires Join(Split(s[1..], c), c) == s[1..]
    requires |Split(s[1..], c)| == Count(s[1..], c) + 1
    requires forall i :: 0 <= i < |Split(s[1..], c)| ==> c !in Split(s[1..], c)[i]
    ensures Join(Split(s, c), c) == s
    ensures |Split(s, c)| == Count(s, c) + 1
    ensures forall i :: 0 <= i < |Split(s, c)| ==> c !in Split(s, c)[i]
  {
    var rest := Split(s[1..], c);
    var parts := Split(s, c);
    assert parts == [[s[0]] + rest[0]] + rest[1..];
    assert Join(parts, c) == s by {
      JoinAfterOther(s[0], rest, c);
    }
    assert forall i :: 0 <= i < |parts| ==> c !in parts[i] by {
      assert forall i :: 1 <= i < |parts| ==> parts[i] == rest[i];
    }
  }

  /** Joining pieces whose first one gained a leading character gains that character. */
  lemma JoinAfterOther(x: char, rest: seq<string>, c: char)
    requires |rest| >= 1
    ensures Join([[x] + rest[0]] + rest[1..], c) == [x] + Join(rest, c)
  {
    var parts := [[x] + rest[0]] + rest[1..];
    assert parts[1..] == rest[1..];
  }

  /** A joined string starts with the first piece, followed by the separator when there are more. */
  lemma JoinStartsWithFirst(parts: seq<string>, c: char)
    requires |parts| >= 1
    ensures |parts[0]| <= |Join(parts, c)| && Join(parts, c)[..|parts[0]|] == parts[0]
    ensures |parts| >= 2 ==> Join(parts, c) == parts[0] + [c] + Join(parts[1..], c)
  {
  }

  /** `a + [c] + b` with no `c` in `a` or `b` has exactly one `c`, and splits back into `a` and `b`. */
  lemma SplitAroundSeparator(a: string, b: string, c: char)
    requires c !in a && c !in b
    ensures Count(a + [c] + b, c) == 1
    ensures Split(a + [c] + b, c) == [a, b]
  {
    var s := a + [c] + b;
    CountAppend(a, [c], c);
    CountAppend(a + [c], b, c);
    assert s[..|a|] == a;
    assert s[|a| + 1..] == b;
    SplitAtOnlySeparator(s, c, |a|);
  }

  /** With exactly one separator at index `k`, `split` gives the text before and after it. */
  lemma SplitAtOnlySeparator(s: string, c: char, k: nat)
    requires k < |s| && s[k] == c && Count(s, c) == 1
    ensures Split(s, c) == [s[..k], s[k + 1..]]
  {
    SplitJoin(s, c);
    var parts := Split(s, c);
    assert |parts| == 2;
    assert Join(parts[1..], c) == parts[1];
    assert s == parts[0] + [c] + parts[1];
    assert s[..k] == parts[0];
    assert s[k + 1..] == parts[1];
  }

  // ---------------------------------------------------------------- strip

  function StripLeft(s: string): (r: string)
    ensures |r| <= |s| && r == s[|s| - |r|..]
    ensures |r| > 0 ==> !IsSpace(r[0])
  {
    if |s| > 0 && IsSpace(s[0]) then StripLeft(s[1..]) else s
  }

  function StripRight(s: string): (r: string)
    ensures |r| <= |s| && r == s[..|r|]
    ensures |r| > 0 ==> !IsSpace(r[|r| - 1])
  {
    if |s| > 0 && IsSpace(s[|s| - 1]) then StripRight(s[..|s| - 1]) else s
  }

  /** `str.strip()`: leading and trailing whitespace removed. */
  function Strip(s: string): (r: string)
    ensures |r| <= |s|
    ensures |r| > 0 ==> !IsSpace(r[0]) && !IsSpace(r[|r| - 1])
  {
    StripRight(StripLeft(s))
  }

  // ---------------------------------------------------------------- int()

  /** The value of a string of decimal digits, most significant first. */
  function DigitsValue(s: string): nat
    requires AllDigits(s)
  {
    if |s| == 0 then 0 else DigitsValue(s[..|s| - 1]) * 10 + DigitValue(s[|s| - 1])
  }

  /**
   * Python's `int(s)` on a string: surrounding whitespace is ignored and what
   * remains must be a non-empty run of decimal digits; anything else raises
   * `ValueError`, modelled as `None`.
   */
  function IntOf(s: string): Option<nat>
  {
    var u := Strip(s);
    if |u| > 0 && AllDigits(u) then Some(DigitsValue(u)) else None
  }

  /** The shortest decimal spelling of `n`, as `str(n)` writes it. */
  function Decimal(n: nat): (s: string)
    ensures |s| > 0 && AllDigits(s)
  {
    if n < 10 then [DigitChar(n)] else Decimal(n / 10) + [DigitChar(n % 10)]
  }

  /** Reading back what `str` wrote gives the same number: `int(str(n)) == n`. */
  lemma {:induction false} IntOfDecimal(n: nat)
    ensures IntOf(Decimal(n)) == Some(n)
  {
    DecimalValue(n);
    NoSpaceUnchanged(Decimal(n));
  }

  lemma {:induction false} DecimalValue(n: nat)
    ensures DigitsValue(Decimal(n)) == n
  {
    if n >= 10 {
      DecimalValue(n / 10);
      var s := Decimal(n);
      assert s[..|s| - 1] == Decimal(n / 10);
    }
  }

  lemma NoSpaceUnchanged(s: string)
    requires |s| > 0 && AllDigits(s)
    ensures Strip(s) == s
  {
    assert StripLeft(s) == s;
    assert StripRight(s) == s;
  }

  /** A non-empty run of digits reads as its own value. */
  lemma IntOfDigits(s: string)
    requires |s| > 0 && AllDigits(s)
    ensures IntOf(s) == Some(DigitsValue(s))
  {
    NoSpaceUnchanged(s);
  }

  /** `int` of one character is that digit's value, and raises for anything but a digit. */
  lemma IntOfOneChar(c: char)
    ensures IsDigit(c) ==> IntOf([c]) == Some(DigitValue(c))
    ensures !IsDigit(c) ==> IntOf([c]) == None
  {
    if IsDigit(c) {
      IntOfOneDigit(c);
    } else if IsSpace(c) {
      IntOfOneSpace(c);
    } else {
      IntOfOneOther(c);
    }
  }

  lemma IntOfOneDigit(c: char)
    requires IsDigit(c)
    ensures IntOf([c]) == Some(DigitValue(c))
  {
    IntOfDigits([c]);
    DigitsValueOne(c);
  }

  lemma DigitsValueOne(c: char)
    requires IsDigit(c)
    ensures DigitsValue([c]) == DigitValue(c)
  {
    var s: string := [c];
    assert s[..0] == [];
  }

  lemma IntOfOneSpace(c: char)
    requires IsSpace(c)
    ensures IntOf([c]) == None
  {
    var s: string := [c];
    assert s[1..] == [];
    assert StripLeft(s) == [];
  }

  lemma IntOfOneOther(c: char)
    requires !IsDigit(c) && !IsSpace(c)
    ensures IntOf([c]) == None
  {
    var s: string := [c];
    assert StripLeft(s) == s;
    assert StripRight(s) == s;
    assert !AllDigits(s);
  }

  /** `int("")` raises. */
  lemma IntOfEmpty()
    ensures IntOf("") == None
  {
  }
}

=== FILE: wrappers.dfy ===
/** Optional values and results-or-exceptions, shared by every module of the model. */
module Wrappers {

  /** A value that may be absent: Python's `None` versus a present value. */
  datatype Option<+T> = None | Some(value: T)

  /** Either a returned value or a raised exception. */
  datatype Result<+T, +E> = Ok(value: T) | Err(error: E)
}
